=== FILE: README.md ===
# gsnova SPAC routing core in Dafny

This project models the routing policy of gsnova's local proxy, as written in
`src/proxy/spac.go`. The policy is called SPAC, after "smart proxy
auto-config". The model covers five parts:

- **Glob patterns** (`patterns.dfy`, module `Patterns`). `initRegexSlice`
  turns a rule's Method, Host and URL strings into expression sources: it
  trims the string, escapes each `.` and expands each `*` to `.*`. It fails
  on the first string the regular-expression engine refuses. `matchRegexs`
  treats an empty list as "match everything".
- **Rules** (`rules.dfy`, module `Rules`). `JsonRule.init` compiles the three
  fields in order and stops at the first failure. `JsonRule.match` requires
  all three fields to match. The file also holds the first-match scan and
  the rule-compile loop of `InitSpac`.
- **Policy** (`policy.dfy`, module `Policy`). This covers the configuration
  snapshot, the pure part of `InitSpac` (as written, and corrected so that a
  compile error aborts the load), and `PostInitSpac`. `PostInitSpac`
  replaces a default that names a disabled GAE or C4 backend by the direct
  target and turns on CRLF injection for every host.
- **Selection** (`selection.dfy`, module `Selection`). `SelectProxy` runs a
  fixed chain:
  1. a request to the proxy's own port is handled locally;
  2. plain HTTP to a must-redirect host is redirected;
  3. the first matching rule supplies the name list;
  4. otherwise the CRLF fallback or the reachable-mapping fallback applies;
  5. otherwise the default target is used.

  Every name is then resolved into at most one candidate: a registered
  backend, a Google relay, or a `Forward` with a normalised target.
- **PAC generation**:
  - `autoproxy.dfy` (module `AutoProxy`) holds the ten-step translation of an
    AutoProxy (GFWList) rule into a JavaScript regex body.
  - `pac.dfy` (module `Pac`) holds the per-line step of `generatePAC`, the
    output template, and the whole build, as written and corrected so that
    a lone `/` rule no longer panics.
  - `pacrules.dfy` (module `PacRules`) holds the line loop. It prepends
    exception (`@@`) statements and appends block statements.

Supporting files:
- `text.dfy` (module `Text`) models the Go string functions the code calls:
  `strings.TrimSpace`, `HasPrefix`, `HasSuffix`, `Contains`, `Replace`,
  `EqualFold`, `Join`, and `net.JoinHostPort`.
- `wrappers.dfy` defines `Option` and `Result`.

Go's regular-expression engine is a parameter: a `RegexEngine` value answers
two questions, "does this source compile?" and "does this compiled expression
match somewhere in this string?". The same applies to the collaborators
`SelectProxy` calls. `net.SplitHostPort`, `util.GetLocalIP`,
`needRedirectHttpsHost`, the configured CRLF host list,
`lookupReachableMappingHost`, `hostsEnable` and `google_enable` are fields of
`Selection.Env` or `Selection.Backends`. So is the registry of remote
connection managers.

The name constants GAE_NAME, C4_NAME, DIRECT_NAME, DEFAULT_NAME, GOOGLE_NAME,
GOOGLE_HTTP_NAME and GOOGLE_HTTPS_NAME are defined outside `spac.go`. They
are abstract strings here (`Policy.Names`). Lemmas that depend on them being
different require `Names.Distinct()`; Go enforces this, because it rejects
duplicate constant `switch` cases.

Both fallbacks put the literal `"Direct"` in front. That literal reaches the
DIRECT_NAME case only if DIRECT_NAME is `"Direct"`. Lemmas that need this
state it as a `requires` (`Selection.DirectLiteralResolvesDirect`).
`Selection.DirectLiteralOtherwiseProxy` shows what happens otherwise.

## Model

| member | source | states |
|---|---|---|
| Text.TrimSpace | src/proxy/spac.go:46 | `strings.TrimSpace`: the result is the slice of the input between its leading and its trailing white space, and itself has neither |
| Text.TrimSpaceOfTrimmed | src/proxy/spac.go:366 | trimming an already trimmed name changes nothing |
| Text.ReplaceAll | src/proxy/spac.go:47-48 | `strings.Replace(s, pat, rep, -1)`: a string without the pattern is unchanged, replacing the pattern by itself changes nothing, and a same-length replacement keeps the length |
| Text.JoinSnoc | src/proxy/spac.go:213 | `strings.Join`: joining one more element appends the separator and that element, so the joined text lists the elements in order |
| Text.EqualFold | src/proxy/spac.go:336 | `strings.EqualFold` on ASCII: true iff the two strings are equal after lower-casing |
| Text.JoinHostPort | src/proxy/spac.go:125 | `net.JoinHostPort`: the host, bracketed iff it contains `:`, then `:`, then the port |
| Patterns.GlobSource | src/proxy/spac.go:46-48 | the two whole-string replacements equal the character-wise rewrite of the trimmed rule: `.` becomes `\.`, `*` becomes `.*`, anything else is kept, and the `.` a star expands to is never escaped afterwards |
| Patterns.ReplaceAllOneChar | src/proxy/spac.go:47-48 | for a one-character pattern, `strings.Replace` with no limit equals rewriting each character on its own |
| Patterns.TwoReplacementsAreGlobMap | src/proxy/spac.go:47-48 | escaping `.` and then expanding `*`, character by character, is the glob rewrite of each character |
| Patterns.GlobMapLength | src/proxy/spac.go:46-48 | the expression is as long as the trimmed rule plus one per `.` and one per `*` |
| Patterns.InitRegexSlice | src/proxy/spac.go:43-60 | succeeds iff every rule string compiles, and then returns the compiled expressions in rule order; otherwise it returns no list and an error naming the first rule string that fails, with every earlier string compiling |
| Patterns.MatchAny | src/proxy/spac.go:35-40 | true iff some expression of the list matches the string |
| Patterns.MatchRegexs | src/proxy/spac.go:31-41 | an empty list matches every string; a non-empty list matches iff some expression matches |
| Rules.Init | src/proxy/spac.go:62-74 | `init` never changes the declared Method, Host, URL, Proxy or Attr fields |
| Rules.InitEffect | src/proxy/spac.go:62-74 | no error iff all three lists compile, and then each field holds its compiled list; the first failing field is left with no expressions, and the fields after it keep their previous contents |
| Rules.Match | src/proxy/spac.go:76-78 | a rule matches iff the method, host and URL fields each match: the field has no expressions or some expression of it matches the request's method, host or URI |
| Rules.EmptyRuleMatchesAll | src/proxy/spac.go:31-34 | a rule with no compiled expressions matches every request |
| Rules.HostFailureWidensRule | src/proxy/spac.go:62-78 | when only the Host list fails to compile, `init` reports an error, and afterwards the rule matches exactly the requests whose method matches |
| Rules.FirstMatchFrom | src/proxy/spac.go:314-320 | returns the first index at or after `from` whose rule matches, with no earlier match; returns none iff no rule from `from` on matches |
| Rules.FirstMatch | src/proxy/spac.go:313-320 | first match wins: the result matches and no earlier rule does; none iff no rule matches |
| Rules.InitEach | src/proxy/spac.go:284-288 | the `InitSpac` loop as written: every rule is initialised and kept, and the error left is the last rule's error (none for no rules) |
| Rules.CompileRules | src/proxy/spac.go:284-288 | `InitEach` with `JsonRule.init`: one rule out per rule in, each the rule after its `init`; the error left is the last rule's (none for no rules) |
| Rules.CompileRulesMasksEarlierError | src/proxy/spac.go:284-291 | a first rule whose Host pattern fails, followed by a good rule, leaves no error, and the broken rule then matches its method for every host |
| Rules.BadHostInit | src/proxy/spac.go:62-70 | a one-method rule whose one Host pattern fails gets an error from `init`, yet matches that method for every host and URL |
| Rules.OnlyMethodConstrains | src/proxy/spac.go:76-78 | a rule whose only expression is one matching Method expression matches that method for every host and URL |
| Rules.LoadEach | src/proxy/spac.go:284-288 | the corrected loop: succeeds iff every rule initialises without error and then keeps every initialised rule; otherwise it reports the first failing rule's error |
| Rules.LoadRules | src/proxy/spac.go:284-291 | `LoadEach` with `JsonRule.init`: success iff no rule's `init` errs; the error is that of the first failing rule |
| Rules.LoadedIsCompiled | src/proxy/spac.go:284-288 | where every rule compiles, the corrected load and the loop as written keep the same rules, and the loop reports no error |
| Rules.LoadedRulesFullyCompiled | src/proxy/spac.go:62-74 | after a successful load, every rule holds the compiled form of all three of its lists, so no field is silently widened |
| Policy.PostInit | src/proxy/spac.go:247-260 | rules are untouched; a default naming disabled GAE or C4 becomes the direct name and sets the catch-all CRLF guard; any other state is returned unchanged; afterwards the default never names a disabled backend |
| Policy.PostInitIdempotent | src/proxy/spac.go:247-260 | applying post-init twice equals applying it once |
| Policy.InitSpac | src/proxy/spac.go:262-291 | `InitSpac` as written: the default is GAE_NAME when unset; Enable = 0 gives no rules and no log; an unreadable file gives no rules and logs the read failure; otherwise every decoded rule is kept after its `init`, and the log, never the read failure, is a compile failure iff the last rule's `init` failed, naming that rule's error |
| Policy.LoadSpacAgrees | src/proxy/spac.go:284-291 | where the corrected load succeeds, `InitSpac` as written builds the same policy and logs no compile failure; where it fails, `InitSpac` still installs every decoded rule |
| Policy.LoadSpac | src/proxy/spac.go:262-291 | the corrected load (see Findings): the default is GAE_NAME when unset; Enable = 0 or an unreadable rule file gives an empty rule list; otherwise the load fails iff some rule fails to compile, and on success the rules are exactly the initialised decoded rules |
| Selection.ChooseNames | src/proxy/spac.go:301-333 | the name list comes from the first matching rule; else from the CRLF fallback on plain HTTP; else from the reachable-mapping fallback when hosts are enabled; else it is the default. Each source holds iff its condition holds |
| Selection.HostPort | src/proxy/spac.go:295-300 | the host and port `net.SplitHostPort` gives, or the whole `req.Host` and port `80` when it fails |
| Selection.IsSelfRequest | src/proxy/spac.go:303-306 | true iff the split host is `127.0.0.1` or the local IP and the split port is the proxy's listen port |
| Selection.EffectiveName | src/proxy/spac.go:336-338 | a name equal to DEFAULT_NAME up to case becomes the configured default; any other name is kept |
| Selection.DirectTarget | src/proxy/spac.go:354-363 | the direct target is `req.Host` with `:80` appended iff it has no `:`, and `http://` put in front iff it has no `://`; the result always has a scheme |
| Selection.DirectTargetIdempotent | src/proxy/spac.go:355-362 | normalising a direct target again changes nothing |
| Selection.ProxyTarget | src/proxy/spac.go:364-370 | the proxy target is the trimmed name, with `http://` in front iff it has no `://`; it is trimmed, has a scheme, and never gets a port |
| Selection.ProxyTargetIdempotent | src/proxy/spac.go:365-369 | normalising a proxy target again changes nothing |
| Selection.PlainProxyTarget | src/proxy/spac.go:365-369 | a trimmed name without `:` becomes exactly `http://` followed by the name |
| Selection.ResolveName | src/proxy/spac.go:335-371 | after the DEFAULT alias is replaced by the default: a registered manager iff the name is GAE_NAME or C4_NAME and registered; the HTTP Google relay iff it is GOOGLE_NAME or GOOGLE_HTTP_NAME and Google is on; the HTTPS relay iff it is GOOGLE_HTTPS_NAME and Google is on; the direct forward iff it is DIRECT_NAME; any other name gives a proxy forward to the normalised name; nothing otherwise. Every forward target has a scheme |
| Selection.ResolveAll | src/proxy/spac.go:335-372 | each name contributes at most one candidate, so the list is never longer than the names; it is exactly as long iff every name resolves |
| Selection.ResolveAllSources | src/proxy/spac.go:335-372 | every candidate is the resolution of some name in the list |
| Selection.ResolveAllConcat | src/proxy/spac.go:335-372 | resolution keeps the order of the names: resolving a concatenation concatenates the resolutions |
| Selection.SelectProxy | src/proxy/spac.go:294-375 | `nil` iff a self-request or plain HTTP to a must-redirect host, and the self-request check comes first; otherwise the candidates of the chosen name list, possibly none |
| Selection.FirstRuleWins | src/proxy/spac.go:313-320 | when rule i is the first match, its Proxy list alone decides the candidates |
| Selection.CrlfSuppressesReachability | src/proxy/spac.go:322-333 | once the CRLF fallback applies, the name list is `["Direct", default]` and the answer of the reachability probe cannot change the result |
| Selection.DefaultWhenNothingApplies | src/proxy/spac.go:301-333 | with no matching rule, no CRLF fallback and hosts mapping disabled, only the default name is resolved |
| Selection.DirectLiteralResolvesDirect | src/proxy/spac.go:354-363 | if DIRECT_NAME is `"Direct"` and the literal is not the DEFAULT alias up to case, the fallbacks' literal resolves to the direct forward |
| Selection.DirectLiteralOtherwiseProxy | src/proxy/spac.go:364-370 | if no constant is `"Direct"`, the literal resolves to a proxy forward to `http://Direct` |
| Selection.UnregisteredGaeIsSkipped | src/proxy/spac.go:340-345 | `["Direct", GAE]` with GAE unregistered resolves to the single direct candidate: a disabled name leaves no placeholder |
| Selection.DisabledGaeDefaultGoesDirect | src/proxy/spac.go:322-325 | after post-init has replaced a disabled GAE default, an unmatched plain-HTTP request gets the direct candidate twice |
| AutoProxy.CollapseStars | src/proxy/spac.go:167-169 | runs of `*` become single stars: no two adjacent stars are left; the first character, the non-star characters and the presence of a star are kept |
| AutoProxy.CollapseStarsFixpoint | src/proxy/spac.go:167-169 | a string without adjacent stars is left unchanged, so collapsing is idempotent |
| AutoProxy.StarRunCollapses | src/proxy/spac.go:167-169 | a run of one or more stars collapses to exactly one star |
| AutoProxy.CollapseStarsConcat | src/proxy/spac.go:167-169 | collapsing works run by run: split anywhere outside a run of stars, the halves collapse independently, so every run stays in place |
| AutoProxy.TrailingSeparator | src/proxy/spac.go:171-173 | a trailing `^\|` loses its `\|`; any other string is unchanged |
| AutoProxy.EscapeNonWord | src/proxy/spac.go:174-176 | backslash-escaping every non-word character loses nothing: unescaping gives the original back, and the result is longer than the input by exactly its number of non-word characters |
| AutoProxy.EscapeThenWildcard | src/proxy/spac.go:174-177 | escaping followed by the `\*` to `.*` replacement turns exactly the original stars into `.*` and escapes every other non-word character |
| AutoProxy.StarToWildcard | src/proxy/spac.go:177 | every `\*` becomes `.*`: position by position, a backslash followed by `*` becomes `.` and every other character is kept, so the length is kept and text without `\*` is unchanged |
| AutoProxy.SeparatorClass | src/proxy/spac.go:179-181 | the `\\^` rewrite never fires on a single-line string, so the text is unchanged |
| AutoProxy.TranslateCore | src/proxy/spac.go:167-181 | steps 1 to 5 amount to a character-wise rewrite of the star-collapsed, separator-trimmed rule |
| AutoProxy.DomainAnchor | src/proxy/spac.go:183-185 | a leading escaped `\|\|` is replaced by the domain-anchor prefix and the rest is kept; other text is unchanged |
| AutoProxy.StartAnchor | src/proxy/spac.go:189-191 | a leading escaped `\|` becomes `^` and the rest is kept; other text is unchanged |
| AutoProxy.EndAnchor | src/proxy/spac.go:192-194 | a trailing escaped `\|` becomes `$` and the rest is kept; other text is unchanged |
| AutoProxy.DomainAndStartAnchorsExclusive | src/proxy/spac.go:183-191 | after the leading-`\|\|` rewrite, the leading-`\|` rewrite no longer applies |
| AutoProxy.StripLeadingWildcard | src/proxy/spac.go:195-197 | removes exactly one leading `.*` when there is one, and nothing otherwise |
| AutoProxy.StripTrailingWildcard | src/proxy/spac.go:198-200 | removes exactly one trailing `.*` when there is one, and nothing otherwise |
| AutoProxy.StripWildcardsBounds | src/proxy/spac.go:195-200 | the last two steps leave a slice of their input, at most one `.*` shorter at each end |
| AutoProxy.Translate | src/proxy/spac.go:167-200 | the ten steps in order equal the anchoring and stripping steps applied to the character-wise pattern map of the star-collapsed, separator-trimmed rule |
| AutoProxy.LoneStarIsEmpty | src/proxy/spac.go:167-203 | the rule `*` translates to the empty pattern |
| AutoProxy.DomainRule | src/proxy/spac.go:167-200 | a domain rule `\|\|host` becomes the domain-anchor prefix followed by the escaped host |
| AutoProxy.DomainRuleUntouched | src/proxy/spac.go:167-173 | steps 1 and 2 leave a domain rule unchanged |
| AutoProxy.DomainRuleEscaped | src/proxy/spac.go:174-181 | steps 3 to 5 escape the `\|\|` and the host character by character |
| AutoProxy.DomainRuleAnchored | src/proxy/spac.go:183-200 | steps 6 to 10 replace the escaped `\|\|` by the prefix and touch nothing else |
| Pac.ProcessLine | src/proxy/spac.go:145-204 | the per-line step as written. Skip iff the trimmed line is blank or a `!` comment. The slice panic iff the body is a lone `/`. DEFAULT iff the line starts with `@@`. A `/…/` body is used verbatim without its slashes; any other body is translated |
| Pac.LoneSlash | src/proxy/spac.go:159-160 | a body that passes both `/` checks but is shorter than two characters is exactly `/` |
| Pac.ProcessLineChecked | src/proxy/spac.go:145-204 | the guarded step: never panics; otherwise the same skip, verdict and verbatim-or-translated cases, with a lone `/` translated |
| Pac.CheckedAgrees | src/proxy/spac.go:159-160 | the guarded step equals the step as written on every line where the latter does not panic |
| Pac.LoneSlashAbortsBuild | src/proxy/spac.go:159-160 | a rule line trimming to `/` panics as written, so its rule list cannot be built, while the guarded step translates it |
| Pac.LoneStarLineEmitsEmptyPattern | src/proxy/spac.go:145-205 | a rule `*` still emits a PROXY statement, with an empty pattern, so the emitted text is `if(//i.test(url)) return PROXY;` |
| Pac.CheckedNeverPanics | src/proxy/spac.go:133-212 | with the guarded step no list of rule lines panics |
| Pac.CheckedOutcomesAgree | src/proxy/spac.go:133-212 | on a list where no line panics as written, the guarded step gives the same outcomes line by line |
| Pac.RenderPac | src/proxy/spac.go:93-107 | the filled template is the banner naming the rule source and date, then the `PROXY` variable holding `PROXY 127.0.0.1:<port>` and the `DEFAULT` variable holding `DIRECT`, then the opening marker, the rule list, the closing marker and `return DEFAULT;`, with nothing else |
| Pac.GeneratePacAsWritten | src/proxy/spac.go:119-220 | `generatePAC` as written: a script iff no rule line panics, and then the template filled with the `\r\n\t`-joined rule list; otherwise the reported line is a rule line whose body is a lone `/` |
| Pac.GeneratePac | src/proxy/spac.go:119-220 | the corrected build (see Findings): always the template filled with the rule list of the guarded step, and that is the script `generatePAC` renders wherever it does not panic |
| PacRules.StepKeepsOrder | src/proxy/spac.go:205-211 | prepending an exception statement, appending a block statement, and ignoring other outcomes all preserve "exceptions in reverse file order, then blocks in file order" |
| PacRules.ExceptionsOverrideBlocks | src/proxy/spac.go:205-211 | a block line followed by two exception lines yields the second exception, the first, then the block |
| PacRules.PanicStops | src/proxy/spac.go:159-160 | one panicking rule line makes the whole list panic |
| PacRules.BuildRuleList | src/proxy/spac.go:133-212 | the header line is skipped. Success iff no rule line panics, and then the result is the exception statements in reverse file order followed by the block statements in file order. On failure, the reported line is the first panicking one |
| PacRules.BuildScript | src/proxy/spac.go:133-220 | the rule list built line by line and rendered: a script iff no rule line panics, then the rendering of the joined rule list; otherwise a rule line that panics |

## Left out

- The RE2 and JavaScript regular-expression languages. Compiling and
  matching are the `RegexEngine` parameter, and no claim is made about which
  URLs a generated pattern matches.
- I/O:
  - `generatePACFromGFWList` (HTTP fetch, retries, base64 decoding, file
    write);
  - reading `user-gfwlist.txt`;
  - the config lookups and file read in `InitSpac`;
  - `handleSelfHttpRequest` and `redirectHttps` (reduced to the tags of
    `LocalHandling`);
  - logging, except `InitSpac`'s failure log (`Policy.InitLog`).
- `bufio.Reader.ReadLine` line splitting, including its treatment of
  over-long lines. The PAC builder takes the body as already split lines.
- JSON decoding. `Policy.LoadSpac` takes the decoded rule list, or `None`
  when the file could not be read. A JSON syntax error is not modelled
  separately.
- The `go` statement and the process-wide mutable variables (`spac`,
  `registedRemoteConnManager`, `injectCRLFPatterns`). They are explicit
  immutable inputs here.
- `initHostMatchRegex("*")` is the flag `Spac.injectAllCrlf`. With it set,
  `needInjectCRLF` is taken to hold for every host, since `*` matches every
  host name. The configured host list is the `Env.needInjectCrlf` parameter.
- `util.RegexpReplace` is not part of this model. It is taken to replace at
  most the first match with the literal replacement. Every use of it is
  anchored at the start or end of the text, so each of those steps is a
  prefix or suffix test.
- Step 5, the `\\^` rewrite at src/proxy/spac.go:179, is modelled as the
  identity (`AutoProxy.SeparatorClass`). In RE2, `^` without the multi-line
  flag matches only at the start of the text. A position after a consumed
  backslash never is, so the rewrite never fires. The intended
  `^`-separator translation therefore does not happen in the code, and the
  model follows the code.
- `text/template` is reduced to one fixed string concatenation
  (`Pac.RenderPac`). Empty CustomCodePre/Post fields leave a lone tab line.
  `net.JoinHostPort` is a concatenation that brackets a host containing `:`.
- Text.EqualFold: folds ASCII letters only. Go's Unicode simple case folding
  (for example the Kelvin sign against `k`) is not modelled.
- The `RemoteConnectionManager` implementations and `Forward`'s connection
  behaviour. Candidates are tags.
- Glob patterns: `strings.Replace` turns each `*` into `.*` separately, so a
  run `**` becomes `.*.*`; runs are not collapsed.
- Policy.LoadSpac: is the corrected load, not `InitSpac` as written. As
  written, the loop keeps every rule and logs only the last rule's error
  (see Findings); `Policy.InitSpac` models that, and
  `Policy.LoadSpacAgrees` relates the two.
- Pac.GeneratePac: is the corrected build, in which a lone `/` rule is
  translated rather than sliced. `Pac.GeneratePacAsWritten` models
  `generatePAC` as written, including the panic.
- Text.ReplaceAll: its own contract states only the cases where nothing
  changes and the length for same-length replacements. What it replaces is
  stated where the code uses it: by `Patterns.ReplaceAllOneChar` for the
  glob rewrite, and by `AutoProxy.EscapeThenWildcard` for the `\*`
  replacement on escaped text.
- The JavaScript syntax of the generated script. A line whose pattern
  translates to nothing, such as `*`, is emitted as `if(//i.test(url))`,
  where JavaScript reads `//` as the start of a comment rather than an empty
  regular expression (`Pac.LoneStarLineEmitsEmptyPattern` states the text).
  The model emits the text as the code does and proves nothing about how a
  browser parses it.
- Byte strings: Go strings are byte sequences, and the GFWList body is
  base64-decoded bytes that need not be valid UTF-8. Strings here are
  sequences of characters, so a byte that is not valid UTF-8 is not
  modelled; for such a byte the `(\W)` step copies the raw byte after a
  backslash.

## Findings

| source | as written | input that shows it | evidently intended | confidence | as-written member | corrected member |
|---|---|---|---|---|---|---|
| src/proxy/spac.go:284-291 | the loop overwrites `e` with every rule's `init` result, so only the last rule's error is reported, and every rule is kept whatever its error | two rules: `{Method:["GET"], Host:["["]}` then a rule that compiles; the first `init` fails on Host, the second succeeds, so no error is logged, and the first rule, left with no Host expressions, matches GET requests to every host | a compile error in any rule fails the load and is reported: `initRegexSlice` (lines 50-53) and `init` (lines 64-70) each stop at their first failure, and the "Failed to init SPAC" log at lines 289-290 is there to report such a failure | not executed; the loop is short and the overwrite is unconditional | Rules.CompileRulesMasksEarlierError | Rules.LoadRules |
| src/proxy/spac.go:159-160 | a trimmed rule body that is a lone `/` passes both `HasPrefix(str, "/")` and `HasSuffix(str, "/")`, and `str[1:len(str)-1]` is `str[1:0]`, which panics; inside the PAC goroutine this ends the process | a GFWList line `/` (or `@@/`) after the header | a one-character body is not a `/regex/` literal: it is translated like any other rule and the PAC is still generated | not executed; Go slice bounds with low > high panic | Pac.LoneSlashAbortsBuild | Pac.ProcessLineChecked |

=== FILE: autoproxy.dfy ===
/**
 Translation of one AutoProxy (GFWList) rule line into the body of a
 JavaScript regular expression: the fixed pipeline of ten rewrites in
 `generatePAC` (src/proxy/spac.go). Each step is its own function, applied in
 the source's order; every rewrite the source performs with a regular
 expression anchored at the start or end of the text is written here as the
 equivalent prefix or suffix test.
 */
module AutoProxy {
  import opened Text

  /** RE2's `\w`: ASCII letters, digits and `_`; every other character, non-ASCII included, is `\W`. */
  predicate IsWordChar(c: char) {
    ('a' <= c <= 'z') || ('A' <= c <= 'Z') || ('0' <= c <= '9') || c == '_'
  }

  /** No two adjacent `*`. */
  predicate NoDoubleStar(s: string) {
    forall i :: 0 <= i < |s| - 1 ==> !(s[i] == '*' && s[i + 1] == '*')
  }

  /** The characters of `s` other than `*`, in order. */
  function NonStars(s: string): string {
    if |s| == 0 then "" else (if s[0] == '*' then "" else [s[0]]) + NonStars(s[1..])
  }

  /** Step 1, `\*+` replaced by `*`: each run of stars becomes a single star. */
  function CollapseStars(s: string): (r: string)
    ensures NoDoubleStar(r)
    ensures |s| > 0 ==> |r| > 0 && r[0] == s[0]
    ensures NonStars(r) == NonStars(s)
    ensures '*' in r <==> '*' in s
    decreases |s|
  {
    if |s| <= 1 then s
    else if s[0] == '*' && s[1] == '*' then
      var rest := CollapseStars(s[1..]);
      assert NonStars(s) == NonStars(s[1..]);
      assert s[1..][0] == s[0];
      rest
    else
      var rest := CollapseStars(s[1..]);
      var r := [s[0]] + rest;
      assert r[1..] == rest && r[0] == s[0] && rest[0] == s[1];
      assert NonStars(r) == (if s[0] == '*' then "" else [s[0]]) + NonStars(rest);
      r
  }

  /** A string without double stars is left alone, so collapsing is idempotent. */
  lemma {:induction false} CollapseStarsFixpoint(s: string)
    requires NoDoubleStar(s)
    ensures CollapseStars(s) == s
    decreases |s|
  {
    if |s| > 1 {
      CollapseStarsFixpoint(s[1..]);
    }
  }

  /** `k` stars in a row. */
  function Stars(k: nat): (r: string)
    ensures |r| == k && forall i :: 0 <= i < k ==> r[i] == '*'
  {
    seq(k, _ => '*')
  }

  /** A run of one or more stars collapses to a single star. */
  lemma {:induction false} StarRunCollapses(k: nat)
    requires k >= 1
    ensures CollapseStars(Stars(k)) == "*"
    decreases k
  {
    if k > 1 {
      StarRunCollapses(k - 1);
      assert Stars(k)[1..] == Stars(k - 1);
    }
  }

  /**
   Collapsing works run by run: where the junction of `a` and `b` is not
   inside a run of stars, the two halves collapse independently, so every
   run stays where it was.
   */
  lemma {:induction false} CollapseStarsConcat(a: string, b: string)
    requires |a| == 0 || |b| == 0 || a[|a| - 1] != '*' || b[0] != '*'
    ensures CollapseStars(a + b) == CollapseStars(a) + CollapseStars(b)
    decreases |a|
  {
    if |a| == 0 {
      assert a + b == b;
    } else if |b| == 0 {
      assert a + b == a;
    } else if |a| == 1 {
      assert (a + b)[1..] == b;
    } else {
      assert (a + b)[1..] == a[1..] + b;
      CollapseStarsConcat(a[1..], b);
    }
  }

  /** Step 2, `\^\|$` replaced by `^`: a trailing `^|` loses its `|`. */
  function TrailingSeparator(s: string): (r: string)
    ensures HasSuffix(s, "^|") ==> r + "|" == s && HasSuffix(r, "^")
    ensures !HasSuffix(s, "^|") ==> r == s
  {
    if HasSuffix(s, "^|") then
      assert s[..|s| - 2] + "^|" == s[..|s| - 2] + s[|s| - 2..] == s;
      s[..|s| - 2] + "^"
    else s
  }

  /** The escape of one character: a backslash in front of every non-word character. */
  function EscapeChar(c: char): string {
    if IsWordChar(c) then [c] else ['\\', c]
  }

  /**
   Step 3, `(\W)` replaced by `\$0`. Escaping loses nothing: reading the
   escaped string back gives the original.
   */
  function EscapeNonWord(s: string): (r: string)
    ensures Unescape(r) == s
    ensures |r| == |s| + NonWordCount(s)
    decreases |s|
  {
    if |s| == 0 then ""
    else
      var rest := EscapeNonWord(s[1..]);
      assert ([s[0]] + rest)[1..] == rest;
      assert (['\\', s[0]] + rest)[2..] == rest;
      assert s == [s[0]] + s[1..];
      EscapeChar(s[0]) + rest
  }

  /** The number of non-word characters in `s`. */
  function NonWordCount(s: string): nat {
    if |s| == 0 then 0 else (if IsWordChar(s[0]) then 0 else 1) + NonWordCount(s[1..])
  }

  /** Reads an escaped string back: a backslash takes the next character literally. */
  function Unescape(t: string): string
    decreases |t|
  {
    if |t| == 0 then ""
    else if t[0] == '\\' && |t| >= 2 then [t[1]] + Unescape(t[2..])
    else [t[0]] + Unescape(t[1..])
  }

  /** An escaped string never starts with a bare `*`. */
  lemma EscapedHeadNotStar(s: string)
    ensures |EscapeNonWord(s)| > 0 ==> EscapeNonWord(s)[0] != '*'
  {
  }

  /**
   Step 4, `strings.Replace(s, "\*", ".*", -1)`: the backslash of every
   `\*` becomes `.` and every other character is kept. Two occurrences of
   `\*` cannot overlap, so each position is decided by its own character and
   the next.
   */
  function StarToWildcard(s: string): (r: string)
    ensures |r| == |s|
    ensures forall i {:trigger r[i]} :: 0 <= i < |s| ==>
              r[i] == (if s[i] == '\\' && i + 1 < |s| && s[i + 1] == '*' then '.' else s[i])
    ensures !Contains(s, "\\*") ==> r == s
  {
    StarReplaceCharwise(s);
    ReplaceAll(s, "\\*", ".*")
  }

  /** The `\*` replacement, position by position. */
  lemma {:induction false} StarReplaceCharwise(s: string)
    ensures |ReplaceAll(s, "\\*", ".*")| == |s|
    ensures forall i {:trigger ReplaceAll(s, "\\*", ".*")[i]} :: 0 <= i < |s| ==>
              ReplaceAll(s, "\\*", ".*")[i] == (if s[i] == '\\' && i + 1 < |s| && s[i + 1] == '*' then '.' else s[i])
    decreases |s|
  {
    if |s| > 0 {
      var r := ReplaceAll(s, "\\*", ".*");
      if HasPrefix(s, "\\*") {
        var t := s[2..];
        var rest := ReplaceAll(t, "\\*", ".*");
        StarReplaceCharwise(t);
        assert r == ".*" + rest;
        forall i | 0 <= i < |s|
          ensures r[i] == (if s[i] == '\\' && i + 1 < |s| && s[i + 1] == '*' then '.' else s[i])
        {
          if i >= 2 {
            var k := i - 2;
            assert rest[k] == (if t[k] == '\\' && k + 1 < |t| && t[k + 1] == '*' then '.' else t[k]);
            assert r[i] == rest[k] && t[k] == s[i];
            if i + 1 < |s| {
              assert t[i - 1] == s[i + 1];
            }
          } else {
            assert s[..2] == "\\*";
          }
        }
      } else {
        var t := s[1..];
        var rest := ReplaceAll(t, "\\*", ".*");
        StarReplaceCharwise(t);
        assert r == [s[0]] + rest;
        forall i | 0 <= i < |s|
          ensures r[i] == (if s[i] == '\\' && i + 1 < |s| && s[i + 1] == '*' then '.' else s[i])
        {
          if i >= 1 {
            var k := i - 1;
            assert rest[k] == (if t[k] == '\\' && k + 1 < |t| && t[k + 1] == '*' then '.' else t[k]);
            assert r[i] == rest[k] && t[k] == s[i];
            if i + 1 < |s| {
              assert t[i] == s[i + 1];
            }
          } else if s[0] == '\\' && 1 < |s| && s[1] == '*' {
            assert false;
          }
        }
      }
    }
  }

  /** The reference for steps 3 and 4 together, one character at a time. */
  function PatternChar(c: char): string {
    if c == '*' then ".*" else EscapeChar(c)
  }

  function PatternMap(s: string): string {
    if |s| == 0 then "" else PatternChar(s[0]) + PatternMap(s[1..])
  }

  /** Step 4 keeps a first character that is not a backslash. */
  lemma WildcardKeepsHead(c: char, rest: string)
    requires c != '\\'
    ensures StarToWildcard([c] + rest) == [c] + StarToWildcard(rest)
  {
    assert !HasPrefix([c] + rest, "\\*");
    assert ([c] + rest)[1..] == rest;
  }

  /** Step 4 turns a leading `\*` into `.*`. */
  lemma WildcardOfEscapedStar(rest: string)
    ensures StarToWildcard(['\\', '*'] + rest) == ".*" + StarToWildcard(rest)
  {
    assert HasPrefix(['\\', '*'] + rest, "\\*");
    assert (['\\', '*'] + rest)[2..] == rest;
  }

  /** Step 4 keeps any other escape, as long as it does not start a `\*` with what follows. */
  lemma WildcardKeepsEscape(c: char, rest: string)
    requires c != '*' && (|rest| == 0 || rest[0] != '*')
    ensures StarToWildcard(['\\', c] + rest) == ['\\', c] + StarToWildcard(rest)
  {
    var t := ['\\', c] + rest;
    assert !HasPrefix(t, "\\*");
    assert t[1..] == [c] + rest;
    assert !HasPrefix([c] + rest, "\\*");
    assert ([c] + rest)[1..] == rest;
  }

  /**
   After escaping, the only `\*` sequences are escaped stars, so step 4 turns
   exactly the original stars into `.*` and leaves every other escape alone.
   */
  lemma {:induction false} EscapeThenWildcard(s: string)
    ensures StarToWildcard(EscapeNonWord(s)) == PatternMap(s)
    decreases |s|
  {
    if |s| > 0 {
      var c := s[0];
      var rest := EscapeNonWord(s[1..]);
      EscapeThenWildcard(s[1..]);
      assert EscapeNonWord(s) == EscapeChar(c) + rest;
      if IsWordChar(c) {
        WildcardKeepsHead(c, rest);
      } else if c == '*' {
        WildcardOfEscapedStar(rest);
      } else {
        EscapedHeadNotStar(s[1..]);
        WildcardKeepsEscape(c, rest);
      }
    }
  }

  /**
   Step 5, `\\^` replaced by the separator class. In RE2 `^` without the
   multi-line flag matches only at the start of the text, which a position
   after a consumed backslash never is, so this rewrite never fires and the
   step is the identity.
   */
  function SeparatorClass(s: string): (r: string)
    ensures r == s
  {
    s
  }

  /** The replacement for a leading `||`: any scheme, then optionally any subdomains. */
  const DomainPrefix: string := @"^[\w\-]+:\/+(?!\/)(?:[^\/]+\.)?"

  /** Step 6, `^\\\|\\\|`: an escaped leading `||` becomes the domain-anchor prefix. */
  function DomainAnchor(s: string): (r: string)
    ensures HasPrefix(s, @"\|\|") ==> HasPrefix(r, DomainPrefix) && r[|DomainPrefix|..] == s[4..]
    ensures !HasPrefix(s, @"\|\|") ==> r == s
  {
    if HasPrefix(s, @"\|\|") then
      assert (DomainPrefix + s[4..])[..|DomainPrefix|] == DomainPrefix;
      DomainPrefix + s[4..]
    else s
  }

  /** Step 7, `^\\\|`: an escaped leading `|` becomes the start anchor. */
  function StartAnchor(s: string): (r: string)
    ensures HasPrefix(s, @"\|") ==> |r| == |s| - 1 && r[0] == '^' && r[1..] == s[2..]
    ensures !HasPrefix(s, @"\|") ==> r == s
  {
    if HasPrefix(s, @"\|") then "^" + s[2..] else s
  }

  /** Step 8, `\\\|$`: an escaped trailing `|` becomes the end anchor. */
  function EndAnchor(s: string): (r: string)
    ensures HasSuffix(s, @"\|") ==> |r| == |s| - 1 && r[|r| - 1] == '$' && r[..|r| - 1] == s[..|s| - 2]
    ensures !HasSuffix(s, @"\|") ==> r == s
  {
    if HasSuffix(s, @"\|") then s[..|s| - 2] + "$" else s
  }

  /** Step 9, `^(\.\*)`: a leading `.*` is dropped once. */
  function StripLeadingWildcard(s: string): (r: string)
    ensures HasPrefix(s, ".*") ==> r == s[2..]
    ensures !HasPrefix(s, ".*") ==> r == s
  {
    if HasPrefix(s, ".*") then s[2..] else s
  }

  /** Step 10, `(\.\*)$`: a trailing `.*` is dropped once. */
  function StripTrailingWildcard(s: string): (r: string)
    ensures HasSuffix(s, ".*") ==> r == s[..|s| - 2]
    ensures !HasSuffix(s, ".*") ==> r == s
  {
    if HasSuffix(s, ".*") then s[..|s| - 2] else s
  }

  /**
   The whole pipeline, steps 1 to 10 in the source's order. Steps 3 to 5
   amount to the character-wise `PatternMap`, so the translation is the
   anchoring and stripping steps applied to that map of the star-collapsed,
   separator-trimmed rule.
   */
  function Translate(str: string): (r: string)
    ensures r == StripTrailingWildcard(StripLeadingWildcard(EndAnchor(StartAnchor(DomainAnchor(
                   PatternMap(TrailingSeparator(CollapseStars(str))))))))
  {
    EscapeThenWildcard(TrailingSeparator(CollapseStars(str)));
    var s := CollapseStars(str);
    var s := TrailingSeparator(s);
    var s := EscapeNonWord(s);
    var s := StarToWildcard(s);
    var s := SeparatorClass(s);
    var s := DomainAnchor(s);
    var s := StartAnchor(s);
    var s := EndAnchor(s);
    var s := StripLeadingWildcard(s);
    StripTrailingWildcard(s)
  }

  /** Steps 1 to 5 as one character-wise rewrite of the star-collapsed, separator-trimmed line. */
  lemma TranslateCore(str: string)
    ensures SeparatorClass(StarToWildcard(EscapeNonWord(TrailingSeparator(CollapseStars(str)))))
            == PatternMap(TrailingSeparator(CollapseStars(str)))
  {
    EscapeThenWildcard(TrailingSeparator(CollapseStars(str)));
  }

  /** The leading-`||` rewrite and the leading-`|` rewrite never both apply. */
  lemma DomainAndStartAnchorsExclusive(s: string)
    ensures HasPrefix(s, @"\|\|") ==> StartAnchor(DomainAnchor(s)) == DomainAnchor(s)
    ensures HasPrefix(s, @"\|\|") ==> !HasPrefix(DomainAnchor(s), @"\|")
  {
    if HasPrefix(s, @"\|\|") {
      assert DomainAnchor(s)[0] == '^';
    }
  }

  /**
   The last two steps remove at most one leading and at most one trailing
   `.*`: what is left is a slice of their input, at most two characters
   shorter at each end.
   */
  lemma StripWildcardsBounds(s: string)
    ensures var r := StripTrailingWildcard(StripLeadingWildcard(s));
            exists i, j :: i in {0, 2} && j in {|s|, |s| - 2} && 0 <= i <= j <= |s| && r == s[i..j]
  {
    var m := StripLeadingWildcard(s);
    var r := StripTrailingWildcard(m);
    var i := if HasPrefix(s, ".*") then 2 else 0;
    assert m == s[i..];
    if HasSuffix(m, ".*") {
      assert r == s[i..|s| - 2];
      assert i in {0, 2} && |s| - 2 in {|s|, |s| - 2};
    } else {
      assert r == s[i..|s|];
      assert i in {0, 2} && |s| in {|s|, |s| - 2};
    }
  }

  /** A lone `*` translates to the empty pattern. */
  lemma LoneStarIsEmpty()
    ensures Translate("*") == ""
  {
    assert CollapseStars("*") == "*";
    assert TrailingSeparator("*") == "*";
    assert EscapeNonWord("*") == "\\*";
    assert StarToWildcard("\\*") == ".*";
    assert DomainAnchor(".*") == ".*";
    assert StartAnchor(".*") == ".*";
    assert EndAnchor(".*") == ".*";
    assert StripLeadingWildcard(".*") == "";
  }

  /** A plain host name: letters, digits, `_`, `-` and dots. */
  predicate IsHostName(d: string) {
    forall i :: 0 <= i < |d| ==> IsWordChar(d[i]) || d[i] == '.' || d[i] == '-'
  }

  lemma {:induction false} PatternMapConcat(a: string, b: string)
    ensures PatternMap(a + b) == PatternMap(a) + PatternMap(b)
    decreases |a|
  {
    if |a| > 0 {
      assert (a + b)[1..] == a[1..] + b;
      PatternMapConcat(a[1..], b);
    } else {
      assert a + b == b;
    }
  }

  /** The pattern of a host name holds no `*` and no `|`. */
  lemma {:induction false} HostPatternPlain(d: string)
    requires IsHostName(d)
    ensures '*' !in PatternMap(d) && '|' !in PatternMap(d)
    decreases |d|
  {
    if |d| > 0 {
      assert IsHostName(d[1..]) by {
        forall i | 0 <= i < |d[1..]| ensures IsWordChar(d[1..][i]) || d[1..][i] == '.' || d[1..][i] == '-' {
          assert d[1..][i] == d[i + 1];
        }
      }
      HostPatternPlain(d[1..]);
    }
  }

  /** Steps 1 and 2 leave a domain rule alone. */
  lemma DomainRuleUntouched(d: string)
    requires IsHostName(d)
    ensures TrailingSeparator(CollapseStars("||" + d)) == "||" + d
  {
    var str := "||" + d;
    assert NoDoubleStar(str) by {
      forall i | 0 <= i < |str| - 1 ensures str[i] != '*' {
        if i >= 2 { assert str[i] == d[i - 2]; }
      }
    }
    CollapseStarsFixpoint(str);
    assert !HasSuffix(str, "^|") by {
      if |d| > 0 { assert str[|str| - 1] == d[|d| - 1]; }
    }
  }

  /** Steps 1 to 5 on a domain rule: the `||` and the host are escaped character-wise. */
  lemma DomainRuleEscaped(d: string)
    requires IsHostName(d)
    ensures SeparatorClass(StarToWildcard(EscapeNonWord(TrailingSeparator(CollapseStars("||" + d)))))
            == @"\|\|" + PatternMap(d)
  {
    var t := "||" + d;
    DomainRuleUntouched(d);
    EscapeThenWildcard(t);
    PatternMapConcat("||", d);
    EscapedBars();
  }

  lemma EscapedBars()
    ensures PatternMap("||") == @"\|\|"
  {
  }

  /** Steps 6 to 10 on an escaped domain rule whose host part holds no `*` and no `|`. */
  lemma DomainRuleAnchored(p: string)
    requires '*' !in p && '|' !in p
    ensures var s5 := @"\|\|" + p;
            StripTrailingWildcard(StripLeadingWildcard(EndAnchor(StartAnchor(DomainAnchor(s5)))))
            == DomainPrefix + p
  {
    var s5 := @"\|\|" + p;
    assert HasPrefix(s5, @"\|\|");
    assert s5[4..] == p;
    var s6 := DomainPrefix + p;
    assert DomainAnchor(s5) == s6;
    assert s6[0] == '^';
    assert StartAnchor(s6) == s6;
    assert !HasSuffix(s6, @"\|") && !HasSuffix(s6, ".*") by {
      if |p| > 0 {
        assert s6[|s6| - 1] == p[|p| - 1];
        assert p[|p| - 1] in p;
      }
    }
    assert StripLeadingWildcard(s6) == s6;
  }

  /**
   A domain rule `||host` becomes the domain-anchor prefix followed by the
   host with its dots and dashes escaped; none of the later anchors or strips
   touch it.
   */
  lemma DomainRule(d: string)
    requires IsHostName(d)
    ensures Translate("||" + d) == DomainPrefix + PatternMap(d)
  {
    DomainRuleEscaped(d);
    HostPatternPlain(d);
    DomainRuleAnchored(PatternMap(d));
  }
}

=== FILE: pac.dfy ===
/**
 One GFWList line of `generatePAC` (src/proxy/spac.go) turned into a
 statement outcome, and the fixed template the rule list is rendered into.
 */
module Pac {
  import opened Wrappers
  import opened Text
  import opened AutoProxy
  import opened PacRules

  /** The trimmed line is a comment or blank. */
  predicate IsComment(line: string) {
    var str := TrimSpace(line);
    |str| == 0 || HasPrefix(str, "!")
  }

  /** The trimmed line with an exception marker `@@` removed. */
  function RuleBody(line: string): string {
    var str := TrimSpace(line);
    if HasPrefix(str, "@@") then str[2..] else str
  }

  /** The body is written as a `/regex/` literal. */
  predicate IsVerbatim(body: string) {
    HasPrefix(body, "/") && HasSuffix(body, "/")
  }

  /**
   One pass of the loop body for a non-header line: comments and blanks are
   skipped, `@@` lines return DEFAULT and all others PROXY, a `/…/` body is
   used verbatim and anything else goes through the AutoProxy translation.
   */
  function ProcessLine(line: string): (o: LineOutcome)
    ensures o.Skip? <==> IsComment(line)
    ensures o.SlicePanic? <==> !IsComment(line) && RuleBody(line) == "/"
    ensures o.Emit? ==> (o.verdict == UseDefault <==> HasPrefix(TrimSpace(line), "@@"))
    ensures o.Emit? && IsVerbatim(RuleBody(line)) ==> RuleBody(line) == "/" + o.regex + "/"
    ensures o.Emit? && !IsVerbatim(RuleBody(line)) ==> o.regex == Translate(RuleBody(line))
  {
    if IsComment(line) then Skip
    else
      var verdict := if HasPrefix(TrimSpace(line), "@@") then UseDefault else UseProxy;
      var body := RuleBody(line);
      LoneSlash(body);
      if IsVerbatim(body) then
        if |body| < 2 then SlicePanic
        else
          VerbatimSplit(body);
          Emit(verdict, body[1..|body| - 1])
      else Emit(verdict, Translate(body))
  }

  /**
   The line step with the verbatim branch guarded by a length check: a
   lone `/` is not a `/regex/` literal and goes through the translation like
   any other rule, so no line aborts the build.
   */
  function ProcessLineChecked(line: string): (o: LineOutcome)
    ensures !o.SlicePanic?
    ensures o.Skip? <==> IsComment(line)
    ensures o.Emit? ==> (o.verdict == UseDefault <==> HasPrefix(TrimSpace(line), "@@"))
    ensures o.Emit? && IsVerbatim(RuleBody(line)) && RuleBody(line) != "/" ==> RuleBody(line) == "/" + o.regex + "/"
    ensures o.Emit? && (!IsVerbatim(RuleBody(line)) || RuleBody(line) == "/") ==> o.regex == Translate(RuleBody(line))
  {
    if IsComment(line) then Skip
    else
      var verdict := if HasPrefix(TrimSpace(line), "@@") then UseDefault else UseProxy;
      var body := RuleBody(line);
      if body == "/" then Emit(verdict, Translate(body))
      else
        LoneSlash(body);
        if IsVerbatim(body) then
          VerbatimSplit(body);
          Emit(verdict, body[1..|body| - 1])
        else Emit(verdict, Translate(body))
  }

  /** The guarded step differs from the step as written only where the latter panics. */
  lemma CheckedAgrees(line: string)
    ensures !ProcessLine(line).SlicePanic? ==> ProcessLineChecked(line) == ProcessLine(line)
  {
    LoneSlash(RuleBody(line));
  }

  /**
   As written, a rule line that trims to `/` passes both verbatim checks and
   the slice `str[1:0]` panics, so a list holding it produces no PAC at all;
   the guarded step translates it instead.
   */
  lemma LoneSlashAbortsBuild(header: string, line: string)
    requires TrimSpace(line) == "/"
    ensures ProcessLine(line).SlicePanic?
    ensures !NoPanic(Outcomes(ProcessLine, RuleLines([header, line])))
    ensures ProcessLineChecked(line) == Emit(UseProxy, Translate("/"))
  {
    var str := TrimSpace(line);
    assert !HasPrefix(str, "!") && !HasPrefix(str, "@@") && |str| == 1;
    assert RuleBody(line) == "/";
    PanicStops(ProcessLine, [header, line], 1);
  }

  /** A `/…/` body shorter than two characters is exactly the lone `/`. */
  lemma LoneSlash(body: string)
    ensures IsVerbatim(body) && |body| < 2 <==> body == "/"
  {
    if body == "/" {
      assert body[..1] == "/" && body[|body| - 1..] == "/";
    }
    if IsVerbatim(body) && |body| < 2 {
      assert body[..1] == "/";
    }
  }

  lemma VerbatimSplit(body: string)
    requires IsVerbatim(body) && |body| >= 2
    ensures body == "/" + body[1..|body| - 1] + "/"
  {
    assert body[..1] == "/" && body[|body| - 1..] == "/";
  }

  /** An empty pattern leaves `//` where the regular-expression literal would be. */
  lemma EmptyPatternStatement()
    ensures Statement(UseProxy, "") == "if(//i.test(url)) return PROXY;"
  {
  }

  /**
   A rule that is a lone `*` still yields a statement, with an empty
   pattern: the emitted text has `//` where the regular-expression literal
   would be.
   */
  lemma LoneStarLineEmitsEmptyPattern(line: string)
    requires TrimSpace(line) == "*"
    ensures ProcessLine(line) == Emit(UseProxy, "")
    ensures Statement(UseProxy, "") == "if(//i.test(url)) return PROXY;"
  {
    var str := TrimSpace(line);
    assert !HasPrefix(str, "!") && !HasPrefix(str, "@@") && |str| == 1;
    assert RuleBody(line) == "*";
    assert !IsVerbatim("*");
    LoneStarIsEmpty();
    EmptyPatternStatement();
  }

  /** With the guarded step no rule list panics. */
  lemma CheckedNeverPanics(ls: seq<string>)
    ensures NoPanic(Outcomes(ProcessLineChecked, ls))
  {
    forall i | 0 <= i < |ls|
      ensures !Outcomes(ProcessLineChecked, ls)[i].SlicePanic?
    {
      assert Outcomes(ProcessLineChecked, ls)[i] == ProcessLineChecked(ls[i]);
    }
  }

  /** The comment block that opens the script. */
  function Banner(url: string, date: string): string {
    "/*\n * Proxy Auto-Config file generated by autoproxy2pac\n *  Rule source: " + url
    + "\n *  Last update: " + date + "\n */\n"
  }

  /** The text between the banner and the proxy address. */
  const VarsHead: string := "function FindProxyForURL(url, host) {\n\tvar PROXY = \"PROXY "

  /**
   The two variable lines: `PROXY` holds `PROXY 127.0.0.1:<port>`, the
   address every blocked URL is sent to, and `DEFAULT` holds `DIRECT`.
   */
  function ProxyVars(proxyPort: string): string {
    VarsHead + JoinHostPort("127.0.0.1", proxyPort) + VarsTail
  }

  /** The text between the proxy address and the rule list's opening marker. */
  const VarsTail: string := "\";\n\tvar DEFAULT = \"DIRECT\";\n\t\n\t"

  /** The marker comment that opens the rule list. */
  const RulesHead: string := "//-- AUTO-GENERATED RULES, DO NOT MODIFY!\n\t"

  /** The text between the rule list and the end of the script. */
  const RulesTail: string := "\n\t//-- END OF AUTO-GENERATED RULES\n\t\n\treturn DEFAULT;\n}"

  /**
   The PAC template with its fields filled in: the banner, the `PROXY` and
   `DEFAULT` variables, empty custom-code lines, and the rule list between
   its two marker comments, followed by the default return.
   */
  function RenderPac(url: string, date: string, proxyPort: string, code: string): (r: string)
    ensures |r| == |Banner(url, date)| + |ProxyVars(proxyPort)| + |RulesHead + code + RulesTail|
    ensures HasPrefix(r, Banner(url, date))
    ensures r[|Banner(url, date)|..|Banner(url, date)| + |ProxyVars(proxyPort)|] == ProxyVars(proxyPort)
    ensures HasSuffix(r, RulesHead + code + RulesTail)
  {
    var head := Banner(url, date);
    var vars := ProxyVars(proxyPort);
    var rules := RulesHead + code + RulesTail;
    ConcatEnds(head, vars, rules);
    head + vars + rules
  }

  /** Where no line panics as written, the guarded step gives the same outcomes. */
  lemma CheckedOutcomesAgree(ls: seq<string>)
    requires NoPanic(Outcomes(ProcessLine, ls))
    ensures Outcomes(ProcessLineChecked, ls) == Outcomes(ProcessLine, ls)
  {
    forall i | 0 <= i < |ls|
      ensures Outcomes(ProcessLineChecked, ls)[i] == Outcomes(ProcessLine, ls)[i]
    {
      assert !Outcomes(ProcessLine, ls)[i].SlicePanic?;
      CheckedAgrees(ls[i]);
    }
  }

  /**
   `generatePAC` as written, over the already split lines of the body (user
   list appended): the rendered script, or the first rule line whose body is
   a lone `/`, where the slice panics.
   */
  method GeneratePacAsWritten(url: string, date: string, proxyPort: string, lines: seq<string>)
    returns (r: Result<string, PacError>)
    ensures r.Success? <==> NoPanic(Outcomes(ProcessLine, RuleLines(lines)))
    ensures r.Success? ==> r.value == RenderPac(url, date, proxyPort, RuleListCode(RuleList(Outcomes(ProcessLine, RuleLines(lines)))))
    ensures r.Failure? ==> 1 <= r.error.line < |lines| && !IsComment(lines[r.error.line])
                           && RuleBody(lines[r.error.line]) == "/"
  {
    r := BuildScript(ProcessLine, code => RenderPac(url, date, proxyPort, code), lines);
  }

  /**
   The corrected `generatePAC`: lines go through the guarded step, so the
   script is always rendered, and it is the script of `generatePAC` wherever
   that does not panic.
   */
  method GeneratePac(url: string, date: string, proxyPort: string, lines: seq<string>) returns (pac: string)
    ensures pac == RenderPac(url, date, proxyPort, RuleListCode(RuleList(Outcomes(ProcessLineChecked, RuleLines(lines)))))
    ensures NoPanic(Outcomes(ProcessLine, RuleLines(lines))) ==>
              pac == RenderPac(url, date, proxyPort, RuleListCode(RuleList(Outcomes(ProcessLine, RuleLines(lines)))))
  {
    CheckedNeverPanics(RuleLines(lines));
    if NoPanic(Outcomes(ProcessLine, RuleLines(lines))) {
      CheckedOutcomesAgree(RuleLines(lines));
    }
    var r := BuildScript(ProcessLineChecked, code => RenderPac(url, date, proxyPort, code), lines);
    pac := r.value;
  }
}

=== FILE: pacrules.dfy ===
/**
 The PAC rule-list builder: the line loop of `generatePAC`
 (src/proxy/spac.go), which turns the outcomes of the rule lines into an
 ordered list of `if(/…/i.test(url)) return X;` statements.
 */
module PacRules {
  import opened Wrappers
  import opened Text

  /** The PAC variable a statement returns: the proxy, or the direct passthrough. */
  datatype Verdict = UseProxy | UseDefault

  function VarName(v: Verdict): string {
    match v
    case UseProxy => "PROXY"
    case UseDefault => "DEFAULT"
  }

  /** One emitted statement. */
  function Statement(v: Verdict, regex: string): string {
    "if(/" + regex + "/i.test(url)) return " + VarName(v) + ";"
  }

  /** What one rule line amounts to. `SlicePanic` is the Go slice `str[1:0]` on a lone `/`. */
  datatype LineOutcome = Skip | Emit(verdict: Verdict, regex: string) | SlicePanic

  /** The outcome of each line, in order, under the line processor `process`. */
  function Outcomes(process: string -> LineOutcome, lines: seq<string>): seq<LineOutcome> {
    seq(|lines|, i requires 0 <= i < |lines| => process(lines[i]))
  }

  /** The exception (`@@`) statements among the outcomes, in file order. */
  function Exceptions(os: seq<LineOutcome>): seq<string> {
    if |os| == 0 then []
    else
      var front := Exceptions(os[..|os| - 1]);
      match os[|os| - 1]
      case Emit(UseDefault, re) => front + [Statement(UseDefault, re)]
      case _ => front
  }

  /** The block statements among the outcomes, in file order. */
  function Blocks(os: seq<LineOutcome>): seq<string> {
    if |os| == 0 then []
    else
      var front := Blocks(os[..|os| - 1]);
      match os[|os| - 1]
      case Emit(UseProxy, re) => front + [Statement(UseProxy, re)]
      case _ => front
  }

  function Reverse<T>(s: seq<T>): (r: seq<T>)
    ensures |r| == |s|
  {
    if |s| == 0 then [] else Reverse(s[1..]) + [s[0]]
  }

  lemma {:induction false} ReverseSnoc<T>(s: seq<T>, x: T)
    ensures Reverse(s + [x]) == [x] + Reverse(s)
    decreases |s|
  {
    if |s| > 0 {
      assert (s + [x])[1..] == s[1..] + [x];
      ReverseSnoc(s[1..], x);
    } else {
      assert s + [x] == [x];
    }
  }

  /**
   The emitted rule list: the exception statements in reverse file order,
   then the block statements in file order, so a later exception is tried
   first and every exception before any block.
   */
  function RuleList(os: seq<LineOutcome>): seq<string> {
    Reverse(Exceptions(os)) + Blocks(os)
  }

  /** How one more outcome extends the two statement lists. */
  lemma ListsSnoc(prev: seq<LineOutcome>, o: LineOutcome)
    ensures o.Emit? && o.verdict == UseDefault ==>
              Exceptions(prev + [o]) == Exceptions(prev) + [Statement(UseDefault, o.regex)]
              && Blocks(prev + [o]) == Blocks(prev)
    ensures o.Emit? && o.verdict == UseProxy ==>
              Blocks(prev + [o]) == Blocks(prev) + [Statement(UseProxy, o.regex)]
              && Exceptions(prev + [o]) == Exceptions(prev)
    ensures !o.Emit? ==> Exceptions(prev + [o]) == Exceptions(prev) && Blocks(prev + [o]) == Blocks(prev)
  {
    assert (prev + [o])[..|prev|] == prev;
  }

  /**
   The loop's way of building the list agrees with `RuleList`: an exception
   statement is put in front of everything so far, a block statement at the
   end, and anything else changes nothing.
   */
  lemma StepKeepsOrder(prev: seq<LineOutcome>, o: LineOutcome)
    ensures o.Emit? && o.verdict == UseDefault ==>
              RuleList(prev + [o]) == [Statement(UseDefault, o.regex)] + RuleList(prev)
    ensures o.Emit? && o.verdict == UseProxy ==>
              RuleList(prev + [o]) == RuleList(prev) + [Statement(UseProxy, o.regex)]
    ensures !o.Emit? ==> RuleList(prev + [o]) == RuleList(prev)
  {
    ListsSnoc(prev, o);
    if o.Emit? {
      var js := Statement(o.verdict, o.regex);
      if o.verdict == UseDefault {
        PrependToReversed(Exceptions(prev), Blocks(prev), js);
      } else {
        AppendAfter(Reverse(Exceptions(prev)), Blocks(prev), js);
      }
    }
  }

  lemma PrependToReversed<T>(e: seq<T>, b: seq<T>, x: T)
    ensures [x] + (Reverse(e) + b) == Reverse(e + [x]) + b
  {
    ReverseSnoc(e, x);
  }

  lemma AppendAfter<T>(r: seq<T>, b: seq<T>, x: T)
    ensures (r + b) + [x] == r + (b + [x])
  {
  }

  /**
   Exception statements run before every block statement, the latest
   exception first: a block line followed by two exception lines yields the
   second exception, then the first, then the block.
   */
  lemma ExceptionsOverrideBlocks(b: string, x1: string, x2: string)
    ensures RuleList([Emit(UseProxy, b), Emit(UseDefault, x1), Emit(UseDefault, x2)])
            == [Statement(UseDefault, x2), Statement(UseDefault, x1), Statement(UseProxy, b)]
  {
    var o0, o1, o2 := Emit(UseProxy, b), Emit(UseDefault, x1), Emit(UseDefault, x2);
    SeqLiterals(o0, o1, o2);
    StepKeepsOrder([], o0);
    StepKeepsOrder([o0], o1);
    StepKeepsOrder([o0, o1], o2);
    assert RuleList([]) == [];
  }

  lemma SeqLiterals<T>(a: T, b: T, c: T)
    ensures [] + [a] == [a] && [a] + [b] == [a, b] && [a, b] + [c] == [a, b, c]
  {
  }

  /** The lines after the header line. */
  function RuleLines(lines: seq<string>): seq<string> {
    if |lines| == 0 then [] else lines[1..]
  }

  /** No outcome is the lone-`/` slice panic. */
  predicate NoPanic(os: seq<LineOutcome>) {
    forall i :: 0 <= i < |os| ==> !os[i].SlicePanic?
  }

  /** The rule lines seen after reading `k` lines, and one step further. */
  lemma OutcomesSnoc(process: string -> LineOutcome, lines: seq<string>, k: nat)
    requires 1 <= k < |lines|
    ensures Outcomes(process, lines[1..k + 1]) == Outcomes(process, lines[1..k]) + [process(lines[k])]
  {
    assert lines[1..k + 1][k - 1] == lines[k];
  }

  /** A panicking rule line makes the whole rule list panic. */
  lemma PanicStops(process: string -> LineOutcome, lines: seq<string>, k: nat)
    requires 1 <= k < |lines| && process(lines[k]).SlicePanic?
    ensures !NoPanic(Outcomes(process, RuleLines(lines)))
  {
    assert Outcomes(process, RuleLines(lines))[k - 1] == process(lines[k]);
  }

  /** The build stopped at line `line` (0-based, counting the header). */
  datatype PacError = SlicePanicAt(line: nat)

  /**
   The line loop of `generatePAC`, with `process` the per-line step
   (`Pac.ProcessLine` as written, `Pac.ProcessLineChecked` in the corrected
   build). The first line is a header and is skipped; an exception statement
   is put in front of everything collected so far and a block statement is
   appended, which builds `RuleList` of the outcomes. A panicking outcome
   aborts the whole build at that line.
   */
  method BuildRuleList(process: string -> LineOutcome, lines: seq<string>) returns (r: Result<seq<string>, PacError>)
    ensures r.Success? <==> NoPanic(Outcomes(process, RuleLines(lines)))
    ensures r.Success? ==> r.value == RuleList(Outcomes(process, RuleLines(lines)))
    ensures r.Failure? ==> 1 <= r.error.line < |lines| && process(lines[r.error.line]).SlicePanic?
                           && NoPanic(Outcomes(process, lines[1..r.error.line]))
  {
    var jscode: seq<string> := [];
    ghost var seen: seq<LineOutcome> := [];
    var i := 0;
    while i < |lines|
      invariant 0 <= i <= |lines|
      invariant seen == Outcomes(process, if i == 0 then [] else lines[1..i])
      invariant NoPanic(seen)
      invariant jscode == RuleList(seen)
    {
      var line := lines[i];
      i := i + 1;
      if i == 1 {
        assert lines[1..i] == [];
        continue;
      }
      var o := process(line);
      OutcomesSnoc(process, lines, i - 1);
      StepKeepsOrder(seen, o);
      if o.SlicePanic? {
        PanicStops(process, lines, i - 1);
        return Failure(SlicePanicAt(i - 1));
      }
      if o.Emit? {
        var js := Statement(o.verdict, o.regex);
        if o.verdict == UseDefault {
          jscode := [js] + jscode;
        } else {
          jscode := jscode + [js];
        }
      }
      seen := seen + [o];
    }
    assert (if i == 0 then [] else lines[1..i]) == RuleLines(lines);
    return Success(jscode);
  }

  /** The rule list joined as in `strings.Join(jscode, "\r\n\t")`. */
  function RuleListCode(stmts: seq<string>): string {
    Join(stmts, "\r\n\t")
  }

  /**
   The rule list built with `process` and handed, joined, to `render`: the
   rendered script, or the first rule line whose outcome panics.
   */
  method BuildScript(process: string -> LineOutcome, render: string -> string, lines: seq<string>)
    returns (r: Result<string, PacError>)
    ensures r.Success? <==> NoPanic(Outcomes(process, RuleLines(lines)))
    ensures r.Success? ==> r.value == render(RuleListCode(RuleList(Outcomes(process, RuleLines(lines)))))
    ensures r.Failure? ==> 1 <= r.error.line < |lines| && process(lines[r.error.line]).SlicePanic?
  {
    var stmts := BuildRuleList(process, lines);
    if stmts.Failure? {
      return Failure(stmts.error);
    }
    r := Success(render(RuleListCode(stmts.value)));
  }
}

=== FILE: patterns.dfy ===
/**
 The glob dialect used by the rule fields Method, Host and URL
 (`initRegexSlice` and `matchRegexs` in src/proxy/spac.go).

 Go's regular-expression engine is outside the model: a `RegexEngine` value
 carries the two questions the code asks of it, "does this source compile?"
 and "does this compiled expression match somewhere in this string?".
 */
module Patterns {
  import opened Wrappers
  import opened Text

  /** The uninterpreted RE2 engine: `regexp.Compile` success and `MatchString`. */
  datatype RegexEngine = RegexEngine(compiles: string -> bool, matches: (string, string) -> bool)

  /** A compiled expression, identified by its source text. */
  datatype Regex = Regex(source: string)

  /** `regexp.Compile` refused the expression built from the rule string `origin`. */
  datatype CompileError = InvalidPattern(origin: string)

  /** The glob rewrite of one character: `.` is escaped, `*` means any run of characters. */
  function GlobChar(c: char): string {
    if c == '.' then "\\." else if c == '*' then ".*" else [c]
  }

  /** The reference rewrite: every character rewritten independently. */
  function GlobMap(s: string): string {
    if |s| == 0 then "" else GlobChar(s[0]) + GlobMap(s[1..])
  }

  function Count(s: string, c: char): nat {
    if |s| == 0 then 0 else (if s[0] == c then 1 else 0) + Count(s[1..], c)
  }

  /**
   The expression source built from a rule string (trim, escape `.`, expand
   `*`). The two whole-string replacements amount to rewriting each
   character of the trimmed rule on its own; in particular the `.` that a
   `*` expands to is never escaped afterwards.
   */
  function GlobSource(raw: string): (r: string)
    ensures r == GlobMap(TrimSpace(raw))
  {
    var t := TrimSpace(raw);
    ReplaceAllOneChar(t, '.', "\\.");
    ReplaceAllOneChar(ReplaceEach(t, '.', "\\."), '*', ".*");
    TwoReplacementsAreGlobMap(t);
    var rule := ReplaceAll(t, ".", "\\.");
    ReplaceAll(rule, "*", ".*")
  }

  /** Replacing a one-character pattern, character by character. */
  function ReplaceEach(s: string, c: char, rep: string): string {
    if |s| == 0 then "" else (if s[0] == c then rep else [s[0]]) + ReplaceEach(s[1..], c, rep)
  }

  lemma {:induction false} ReplaceAllOneChar(s: string, c: char, rep: string)
    ensures ReplaceAll(s, [c], rep) == ReplaceEach(s, c, rep)
    decreases |s|
  {
    if |s| > 0 {
      ReplaceAllOneChar(s[1..], c, rep);
    }
  }

  lemma {:induction false} ReplaceEachConcat(a: string, b: string, c: char, rep: string)
    ensures ReplaceEach(a + b, c, rep) == ReplaceEach(a, c, rep) + ReplaceEach(b, c, rep)
    decreases |a|
  {
    if |a| == 0 {
      assert a + b == b;
    } else {
      assert (a + b)[1..] == a[1..] + b;
      ReplaceEachConcat(a[1..], b, c, rep);
    }
  }

  lemma {:induction false} TwoReplacementsAreGlobMap(s: string)
    ensures ReplaceEach(ReplaceEach(s, '.', "\\."), '*', ".*") == GlobMap(s)
    decreases |s|
  {
    if |s| > 0 {
      var head := if s[0] == '.' then "\\." else [s[0]];
      ReplaceEachConcat(head, ReplaceEach(s[1..], '.', "\\."), '*', ".*");
      TwoReplacementsAreGlobMap(s[1..]);
      if s[0] == '.' {
        assert ReplaceEach(head, '*', ".*") == "\\.";
      } else {
        assert ReplaceEach(head, '*', ".*") == GlobChar(s[0]);
      }
    }
  }

  /** Each `.` and each `*` grows the expression by exactly one character. */
  lemma {:induction false} GlobMapLength(s: string)
    ensures |GlobMap(s)| == |s| + Count(s, '.') + Count(s, '*')
    decreases |s|
  {
    if |s| > 0 {
      GlobMapLength(s[1..]);
    }
  }

  /** The expressions a rule list compiles to, one per rule string. */
  function Compiled(rules: seq<string>): (r: seq<Regex>)
    ensures |r| == |rules|
    ensures forall i :: 0 <= i < |rules| ==> r[i] == Regex(GlobSource(rules[i]))
    decreases |rules|
  {
    if |rules| == 0 then [] else [Regex(GlobSource(rules[0]))] + Compiled(rules[1..])
  }

  /** Every rule string yields an expression the engine accepts. */
  predicate AllCompile(e: RegexEngine, rules: seq<string>) {
    forall i :: 0 <= i < |rules| ==> e.compiles(GlobSource(rules[i]))
  }

  lemma AllCompileCons(e: RegexEngine, rules: seq<string>)
    requires |rules| > 0
    ensures AllCompile(e, rules) <==> e.compiles(GlobSource(rules[0])) && AllCompile(e, rules[1..])
  {
    var p := (x: string) => e.compiles(GlobSource(x));
    AllCons(p, rules);
  }

  /** A sequence satisfies `p` throughout iff its head and its tail do. */
  lemma AllCons<T>(p: T -> bool, s: seq<T>)
    requires |s| > 0
    ensures (forall i :: 0 <= i < |s| ==> p(s[i])) <==> p(s[0]) && (forall i :: 0 <= i < |s[1..]| ==> p(s[1..][i]))
  {
    if p(s[0]) && (forall i :: 0 <= i < |s[1..]| ==> p(s[1..][i])) {
      forall i | 0 <= i < |s|
        ensures p(s[i])
      {
        if i > 0 {
          assert s[i] == s[1..][i - 1];
        }
      }
    }
  }

  /** `k` is the first rule string the engine refuses. */
  predicate FirstInvalid(e: RegexEngine, rules: seq<string>, k: int) {
    0 <= k < |rules| && !e.compiles(GlobSource(rules[k])) && AllCompile(e, rules[..k])
  }

  lemma FirstInvalidCons(e: RegexEngine, rules: seq<string>, k: int)
    requires |rules| > 0 && e.compiles(GlobSource(rules[0]))
    requires FirstInvalid(e, rules[1..], k)
    ensures FirstInvalid(e, rules, k + 1)
  {
    PrefixOfTail(rules, k);
    AllCompileCons(e, rules[..k + 1]);
  }

  lemma PrefixOfTail<T>(s: seq<T>, k: nat)
    requires k < |s| - 1
    ensures s[..k + 1][1..] == s[1..][..k] && s[1..][k] == s[k + 1] && s[..k + 1][0] == s[0]
  {
  }

  /**
   `initRegexSlice`: compiles every rule string in order and stops at the
   first one the engine refuses, reporting that string; no partial list is
   returned.
   */
  function InitRegexSlice(e: RegexEngine, rules: seq<string>): (r: Result<seq<Regex>, CompileError>)
    ensures r.Success? <==> AllCompile(e, rules)
    ensures r.Success? ==> r.value == Compiled(rules)
    ensures r.Failure? ==> exists k :: FirstInvalid(e, rules, k) && r.error == InvalidPattern(rules[k])
    decreases |rules|
  {
    if |rules| == 0 then Success([])
    else
      var src := GlobSource(rules[0]);
      AllCompileCons(e, rules);
      if !e.compiles(src) then
        assert FirstInvalid(e, rules, 0);
        Failure(InvalidPattern(rules[0]))
      else
        match InitRegexSlice(e, rules[1..])
        case Failure(err) =>
          var k :| FirstInvalid(e, rules[1..], k) && err == InvalidPattern(rules[1..][k]);
          FirstInvalidCons(e, rules, k);
          Failure(err)
        case Success(rest) =>
          Success([Regex(src)] + rest)
  }

  /** Some expression of the list matches somewhere in `str`. */
  function MatchAny(e: RegexEngine, str: string, rules: seq<Regex>): (r: bool)
    ensures r <==> exists i :: 0 <= i < |rules| && e.matches(rules[i].source, str)
    decreases |rules|
  {
    if |rules| == 0 then false
    else e.matches(rules[0].source, str) || MatchAny(e, str, rules[1..])
  }

  /**
   `matchRegexs`: an empty list is a wildcard; otherwise the field matches iff
   some expression of the list matches.
   */
  function MatchRegexs(e: RegexEngine, str: string, rules: seq<Regex>): (r: bool)
    ensures |rules| == 0 ==> r
    ensures |rules| > 0 ==> (r <==> exists i :: 0 <= i < |rules| && e.matches(rules[i].source, str))
  {
    |rules| == 0 || MatchAny(e, str, rules)
  }
}

=== FILE: policy.dfy ===
/**
 The routing policy (`SpacConfig` in src/proxy/spac.go): the default target
 name, the ordered rules, and the load-time steps `InitSpac` and
 `PostInitSpac`.
 */
module Policy {
  import opened Wrappers
  import opened Patterns
  import opened Rules

  /**
   The target-name constants the selector compares against (GAE_NAME,
   C4_NAME, DIRECT_NAME, DEFAULT_NAME, GOOGLE_NAME, GOOGLE_HTTP_NAME,
   GOOGLE_HTTPS_NAME). Their values are defined outside this file.
   */
  datatype Names = Names(
    gae: string, c4: string, direct: string, defaultAlias: string,
    google: string, googleHttp: string, googleHttps: string)
  {
    /**
     The six constants used as cases of the one `switch` in `SelectProxy` are
     pairwise distinct: Go refuses duplicate constant cases.
     */
    predicate Distinct() {
      && gae != c4 && gae != direct && gae != google && gae != googleHttp && gae != googleHttps
      && c4 != direct && c4 != google && c4 != googleHttp && c4 != googleHttps
      && direct != google && direct != googleHttp && direct != googleHttps
      && google != googleHttp && google != googleHttps
      && googleHttp != googleHttps
    }
  }

  /** Administrative switches owned by other parts of the proxy. */
  datatype Features = Features(gaeEnabled: bool, c4Enabled: bool, googleEnabled: bool)

  /**
   The policy snapshot. `injectAllCrlf` records that the CRLF-injection host
   list has been replaced by the catch-all pattern `*`.
   */
  datatype Spac = Spac(defaultRule: string, rules: seq<JsonRule>, injectAllCrlf: bool)

  /** The default target names a backend that is switched off. */
  predicate DefaultDisabled(s: Spac, f: Features, n: Names) {
    (s.defaultRule == n.gae && !f.gaeEnabled) || (s.defaultRule == n.c4 && !f.c4Enabled)
  }

  /**
   `PostInitSpac`: a default naming a disabled GAE or C4 backend becomes the
   direct target and the CRLF guard is widened to every host; any other state
   is left exactly as it was.
   */
  function PostInit(s: Spac, f: Features, n: Names): (r: Spac)
    ensures r.rules == s.rules
    ensures n.Distinct() && DefaultDisabled(s, f, n) ==> r.defaultRule == n.direct && r.injectAllCrlf
    ensures n.Distinct() && !DefaultDisabled(s, f, n) ==> r == s
    ensures n.Distinct() ==> !DefaultDisabled(r, f, n)
  {
    if s.defaultRule == n.gae then
      if !f.gaeEnabled then s.(defaultRule := n.direct, injectAllCrlf := true) else s
    else if s.defaultRule == n.c4 then
      if !f.c4Enabled then s.(defaultRule := n.direct, injectAllCrlf := true) else s
    else s
  }

  /** Normalising twice is normalising once. */
  lemma PostInitIdempotent(s: Spac, f: Features, n: Names)
    requires n.Distinct()
    ensures PostInit(PostInit(s, f, n), f, n) == PostInit(s, f, n)
  {
  }

  /** What `InitSpac` logs: nothing, the failed read of the rule file, or a rule's compile error. */
  datatype InitLog = Quiet | ReadFailed | Failed(err: CompileError)

  /**
   The pure part of `InitSpac` as written. `configuredDefault` is the
   SPAC/Default property ("" when unset), `enable` the SPAC/Enable property,
   and `decoded` the decoded rule file (None when it could not be read).
   Every decoded rule is kept, compiled or not, and the only compile error
   logged is the last rule's.
   */
  function InitSpac(e: RegexEngine, n: Names, configuredDefault: string, enable: Option<int>,
                    decoded: Option<seq<JsonRule>>): (r: (Spac, InitLog))
    ensures r.0.defaultRule == (if configuredDefault == "" then n.gae else configuredDefault)
    ensures !r.0.injectAllCrlf
    ensures enable == Some(0) ==> r.0.rules == [] && r.1 == Quiet
    ensures enable != Some(0) && decoded.None? ==> r.0.rules == [] && r.1 == ReadFailed
    ensures enable != Some(0) && decoded.Some? ==>
              |r.0.rules| == |decoded.value|
              && (forall i :: 0 <= i < |decoded.value| ==> r.0.rules[i] == Init(e, decoded.value[i]).rule)
              && r.1 != ReadFailed
              && (r.1 == Quiet <==> |decoded.value| == 0 || Init(e, decoded.value[|decoded.value| - 1]).err.None?)
              && (r.1.Failed? ==> Init(e, decoded.value[|decoded.value| - 1]).err == Some(r.1.err))
  {
    var defaultRule := if configuredDefault == "" then n.gae else configuredDefault;
    if enable == Some(0) then (Spac(defaultRule, [], false), Quiet)
    else if decoded.None? then (Spac(defaultRule, [], false), ReadFailed)
    else
      var (rules, err) := CompileRules(e, decoded.value);
      (Spac(defaultRule, rules, false), if err.Some? then Failed(err.value) else Quiet)
  }

  /**
   Where the corrected load succeeds, `InitSpac` as written builds the same
   policy and logs no compile error; where it fails, `InitSpac` still
   installs every rule.
   */
  lemma LoadSpacAgrees(e: RegexEngine, n: Names, configuredDefault: string, enable: Option<int>,
                       decoded: Option<seq<JsonRule>>)
    ensures var loaded := LoadSpac(e, n, configuredDefault, enable, decoded);
            var (spac, log) := InitSpac(e, n, configuredDefault, enable, decoded);
            && (loaded.Success? ==> loaded.value == spac && !log.Failed?)
            && (loaded.Failure? ==> |spac.rules| == |decoded.value|)
  {
    if enable != Some(0) && decoded.Some? {
      LoadedIsCompiled(e, decoded.value);
    }
  }

  /**
   The corrected `InitSpac`: the rule load aborts on the first rule
   that fails to compile. `configuredDefault` is the SPAC/Default property
   ("" when unset), `enable` the SPAC/Enable property, and `decoded` the
   decoded rule file (None when it could not be read).
   */
  function LoadSpac(e: RegexEngine, n: Names, configuredDefault: string, enable: Option<int>,
                    decoded: Option<seq<JsonRule>>): (r: Result<Spac, CompileError>)
    ensures r.Success? ==> r.value.defaultRule == (if configuredDefault == "" then n.gae else configuredDefault)
    ensures r.Success? ==> !r.value.injectAllCrlf
    ensures enable == Some(0) || decoded.None? ==> r.Success? && r.value.rules == []
    ensures r.Failure? <==> enable != Some(0) && decoded.Some? && LoadRules(e, decoded.value).Failure?
    ensures r.Success? && enable != Some(0) && decoded.Some? ==>
              |r.value.rules| == |decoded.value|
              && forall i :: 0 <= i < |decoded.value| ==> r.value.rules[i] == Init(e, decoded.value[i]).rule
                                                          && Init(e, decoded.value[i]).err.None?
  {
    var defaultRule := if configuredDefault == "" then n.gae else configuredDefault;
    if enable == Some(0) || decoded.None? then Success(Spac(defaultRule, [], false))
    else
      var rules :- LoadRules(e, decoded.value);
      Success(Spac(defaultRule, rules, false))
  }
}

=== FILE: rules.dfy ===
/**
 Routing rules (`JsonRule` in src/proxy/spac.go): three glob pattern lists,
 compiled once, and the ordered proxy-name list a matching rule selects.
 */
module Rules {
  import opened Wrappers
  import opened Patterns
  import opened Text

  /** The parts of an HTTP request the rules look at. */
  datatype Request = Request(verb: string, host: string, requestURI: string)

  /**
   One rule as decoded from the rule file. The three `…Regex` lists are the
   compiled forms of `methods`, `host` and `url`; JSON decoding leaves them
   empty.
   */
  datatype JsonRule = JsonRule(
    methods: seq<string>, host: seq<string>, url: seq<string>,
    proxy: seq<string>, attr: map<string, string>,
    methodRegex: seq<Regex>, hostRegex: seq<Regex>, urlRegex: seq<Regex>)

  /** A rule straight out of the JSON decoder: nothing compiled yet. */
  predicate Decoded(r: JsonRule) {
    r.methodRegex == [] && r.hostRegex == [] && r.urlRegex == []
  }

  /** What `init` leaves behind: the updated rule and the error it returned. */
  datatype InitResult = InitResult(rule: JsonRule, err: Option<CompileError>)

  /** The declared parts of a rule (everything `init` must not touch). */
  predicate SameSource(a: JsonRule, b: JsonRule) {
    a.methods == b.methods && a.host == b.host && a.url == b.url && a.proxy == b.proxy && a.attr == b.attr
  }

  /** `JsonRule.init`: compiles Method, then Host, then URL, returning at the first failure. */
  function Init(e: RegexEngine, r: JsonRule): (o: InitResult)
    ensures SameSource(o.rule, r)
  {
    match InitRegexSlice(e, r.methods)
    case Failure(err) => InitResult(r.(methodRegex := []), Some(err))
    case Success(m) =>
      var r1 := r.(methodRegex := m);
      match InitRegexSlice(e, r.host)
      case Failure(err) => InitResult(r1.(hostRegex := []), Some(err))
      case Success(h) =>
        var r2 := r1.(hostRegex := h);
        match InitRegexSlice(e, r.url)
        case Failure(err) => InitResult(r2.(urlRegex := []), Some(err))
        case Success(u) => InitResult(r2.(urlRegex := u), None)
  }

  /**
   What `init` does to the three compiled fields: it succeeds iff all three
   lists compile, and then holds their compiled forms; otherwise the first
   failing field is left with no expressions and the fields after it keep
   whatever they held before.
   */
  lemma InitEffect(e: RegexEngine, r: JsonRule)
    ensures var o := Init(e, r);
            && (o.err.None? <==> AllCompile(e, r.methods) && AllCompile(e, r.host) && AllCompile(e, r.url))
            && (o.err.None? ==>
                  o.rule.methodRegex == Compiled(r.methods) && o.rule.hostRegex == Compiled(r.host)
                  && o.rule.urlRegex == Compiled(r.url))
            && (!AllCompile(e, r.methods) ==>
                  o.rule.methodRegex == [] && o.rule.hostRegex == r.hostRegex && o.rule.urlRegex == r.urlRegex)
            && (AllCompile(e, r.methods) && !AllCompile(e, r.host) ==>
                  o.rule.methodRegex == Compiled(r.methods) && o.rule.hostRegex == [] && o.rule.urlRegex == r.urlRegex)
            && (AllCompile(e, r.methods) && AllCompile(e, r.host) && !AllCompile(e, r.url) ==>
                  o.rule.methodRegex == Compiled(r.methods) && o.rule.hostRegex == Compiled(r.host)
                  && o.rule.urlRegex == [])
  {
  }

  /**
   `JsonRule.match`: method, host and URL must all match, and a field
   matches when its list is empty or some expression of it matches.
   */
  function Match(e: RegexEngine, r: JsonRule, req: Request): (b: bool)
    ensures b <==>
              && (|r.methodRegex| == 0 || exists i :: 0 <= i < |r.methodRegex| && e.matches(r.methodRegex[i].source, req.verb))
              && (|r.hostRegex| == 0 || exists i :: 0 <= i < |r.hostRegex| && e.matches(r.hostRegex[i].source, req.host))
              && (|r.urlRegex| == 0 || exists i :: 0 <= i < |r.urlRegex| && e.matches(r.urlRegex[i].source, req.requestURI))
  {
    MatchRegexs(e, req.verb, r.methodRegex)
    && MatchRegexs(e, req.host, r.hostRegex)
    && MatchRegexs(e, req.requestURI, r.urlRegex)
  }

  /** A rule with no compiled expressions at all matches every request. */
  lemma EmptyRuleMatchesAll(e: RegexEngine, r: JsonRule, req: Request)
    requires Decoded(r)
    ensures Match(e, r, req)
  {
  }

  /**
   A freshly decoded rule whose Host list fails to compile keeps no Host or
   URL expressions after `init`, so only its Method list still constrains
   which requests it matches.
   */
  lemma HostFailureWidensRule(e: RegexEngine, r: JsonRule, req: Request)
    requires Decoded(r)
    requires AllCompile(e, r.methods) && !AllCompile(e, r.host)
    ensures Init(e, r).err.Some?
    ensures Match(e, Init(e, r).rule, req) <==> MatchRegexs(e, req.verb, Compiled(r.methods))
  {
    InitEffect(e, r);
  }

  /**
   The index of the first rule matching `req`, scanning from `from`:
   first match wins and later rules are not consulted.
   */
  function FirstMatchFrom(e: RegexEngine, rules: seq<JsonRule>, req: Request, from: nat): (r: Option<nat>)
    requires from <= |rules|
    ensures r.Some? ==> from <= r.value < |rules| && Match(e, rules[r.value], req)
                        && forall j :: from <= j < r.value ==> !Match(e, rules[j], req)
    ensures r.None? ==> forall j :: from <= j < |rules| ==> !Match(e, rules[j], req)
    decreases |rules| - from
  {
    if from == |rules| then None
    else if Match(e, rules[from], req) then Some(from)
    else FirstMatchFrom(e, rules, req, from + 1)
  }

  /** The loop of `SelectProxy` over the rules. */
  function FirstMatch(e: RegexEngine, rules: seq<JsonRule>, req: Request): (r: Option<nat>)
    ensures r.Some? ==> r.value < |rules| && Match(e, rules[r.value], req)
                        && forall j :: 0 <= j < r.value ==> !Match(e, rules[j], req)
    ensures r.None? <==> forall j :: 0 <= j < |rules| ==> !Match(e, rules[j], req)
  {
    FirstMatchFrom(e, rules, req, 0)
  }

  /**
   The compile loop of `InitSpac` as written, for any per-rule `init`: every
   rule is initialised and kept, and the error reported is the one the LAST
   rule's `init` returned (the loop overwrites it on every iteration).
   */
  function InitEach(init: JsonRule -> InitResult, rules: seq<JsonRule>): (o: (seq<JsonRule>, Option<CompileError>))
    ensures |o.0| == |rules|
    ensures forall i :: 0 <= i < |rules| ==> o.0[i] == init(rules[i]).rule
    ensures |rules| > 0 ==> o.1 == init(rules[|rules| - 1]).err
    ensures |rules| == 0 ==> o.1.None?
    decreases |rules|
  {
    if |rules| == 0 then ([], None)
    else
      var first := init(rules[0]);
      var rest := InitEach(init, rules[1..]);
      if |rules| == 1 then ([first.rule], first.err)
      else
        assert rules[1..][|rules| - 2] == rules[|rules| - 1];
        assert rest.1 == init(rules[|rules| - 1]).err;
        assert forall i :: 0 <= i < |rules| ==> ([first.rule] + rest.0)[i] == init(rules[i]).rule by {
          forall i | 0 <= i < |rules|
            ensures ([first.rule] + rest.0)[i] == init(rules[i]).rule
          {
            if i > 0 {
              assert rules[i] == rules[1..][i - 1];
            }
          }
        }
        ([first.rule] + rest.0, rest.1)
  }

  /** `InitSpac`'s loop over the decoded rules with `JsonRule.init`. */
  function CompileRules(e: RegexEngine, rules: seq<JsonRule>): (o: (seq<JsonRule>, Option<CompileError>))
    ensures |o.0| == |rules|
    ensures forall i :: 0 <= i < |rules| ==> o.0[i] == Init(e, rules[i]).rule
    ensures |rules| > 0 ==> o.1 == Init(e, rules[|rules| - 1]).err
    ensures |rules| == 0 ==> o.1.None?
  {
    InitEach(r => Init(e, r), rules)
  }

  /**
   The as-written loop loses an earlier rule's compile error: with a Method
   pattern `m` that compiles and matches the verb `m`, a Host pattern `h`
   the engine refuses, and a good second rule, no error is reported and the
   first rule is kept with no Host expressions, so it matches `m` requests to
   every host.
   */
  lemma CompileRulesMasksEarlierError(e: RegexEngine, m: string, h: string)
    requires !e.compiles(GlobSource(h)) && e.compiles(GlobSource(m))
    requires e.matches(GlobSource(m), m)
    ensures var bad := JsonRule([m], [h], [], ["GAE"], map[], [], [], []);
            var good := JsonRule([], [], [], ["Direct"], map[], [], [], []);
            var o := CompileRules(e, [bad, good]);
            && Init(e, bad).err.Some?
            && o.1.None?
            && forall host :: Match(e, o.0[0], Request(m, host, "/"))
  {
    var bad := JsonRule([m], [h], [], ["GAE"], map[], [], [], []);
    var good := JsonRule([], [], [], ["Direct"], map[], [], [], []);
    BadHostInit(e, bad);
    InitEffect(e, good);
    var o := CompileRules(e, [bad, good]);
    assert o.0[0] == Init(e, bad).rule;
    assert o.1 == Init(e, good).err;
  }

  /** A rule with one Method pattern that matches its verb and one Host pattern that does not compile, after `init`. */
  lemma BadHostInit(e: RegexEngine, bad: JsonRule)
    requires |bad.methods| == 1 && |bad.host| == 1 && Decoded(bad)
    requires !e.compiles(GlobSource(bad.host[0])) && e.compiles(GlobSource(bad.methods[0]))
    requires e.matches(GlobSource(bad.methods[0]), bad.methods[0])
    ensures Init(e, bad).err.Some?
    ensures forall host, uri :: Match(e, Init(e, bad).rule, Request(bad.methods[0], host, uri))
  {
    var m := bad.methods[0];
    AllCompileCons(e, bad.methods);
    AllCompileCons(e, bad.host);
    assert Compiled(bad.methods) == [Regex(GlobSource(m))];
    InitEffect(e, bad);
    OnlyMethodConstrains(e, Init(e, bad).rule, GlobSource(m), m);
  }

  /** A rule whose only expression is one Method expression matching `verb` matches every `verb` request. */
  lemma OnlyMethodConstrains(e: RegexEngine, r: JsonRule, src: string, verb: string)
    requires r.methodRegex == [Regex(src)] && r.hostRegex == [] && r.urlRegex == []
    requires e.matches(src, verb)
    ensures forall host, uri :: Match(e, r, Request(verb, host, uri))
  {
    assert MatchRegexs(e, verb, r.methodRegex) by {
      assert e.matches(r.methodRegex[0].source, verb);
    }
  }

  /**
   The intended load, for any per-rule `init`: abort on the first rule whose
   `init` fails and report that rule's error; otherwise keep every
   initialised rule.
   */
  function LoadEach(init: JsonRule -> InitResult, rules: seq<JsonRule>): (r: Result<seq<JsonRule>, CompileError>)
    ensures r.Success? <==> forall i :: 0 <= i < |rules| ==> init(rules[i]).err.None?
    ensures r.Success? ==> |r.value| == |rules|
                           && forall i :: 0 <= i < |rules| ==> r.value[i] == init(rules[i]).rule
    ensures r.Failure? ==> exists k :: 0 <= k < |rules| && init(rules[k]).err == Some(r.error)
                                       && forall j :: 0 <= j < k ==> init(rules[j]).err.None?
    decreases |rules|
  {
    if |rules| == 0 then Success([])
    else
      var first := init(rules[0]);
      if first.err.Some? then Failure(first.err.value)
      else
        match LoadEach(init, rules[1..])
        case Failure(err) =>
          var k :| 0 <= k < |rules[1..]| && init(rules[1..][k]).err == Some(err)
                   && forall j :: 0 <= j < k ==> init(rules[1..][j]).err.None?;
          assert init(rules[k + 1]).err == Some(err);
          assert forall j :: 0 <= j < k + 1 ==> init(rules[j]).err.None? by {
            forall j | 0 <= j < k + 1
              ensures init(rules[j]).err.None?
            {
              if j > 0 {
                assert rules[j] == rules[1..][j - 1];
              }
            }
          }
          Failure(err)
        case Success(rest) =>
          assert forall i :: 0 <= i < |rules| ==> init(rules[i]).err.None? by {
            forall i | 0 <= i < |rules|
              ensures init(rules[i]).err.None?
            {
              if i > 0 {
                assert rules[i] == rules[1..][i - 1];
              }
            }
          }
          Success([first.rule] + rest)
  }

  /** The corrected `InitSpac` loop with `JsonRule.init`. */
  function LoadRules(e: RegexEngine, rules: seq<JsonRule>): (r: Result<seq<JsonRule>, CompileError>)
    ensures r.Success? <==> forall i :: 0 <= i < |rules| ==> Init(e, rules[i]).err.None?
    ensures r.Success? ==> |r.value| == |rules|
                           && forall i :: 0 <= i < |rules| ==> r.value[i] == Init(e, rules[i]).rule
    ensures r.Failure? ==> exists k :: 0 <= k < |rules| && Init(e, rules[k]).err == Some(r.error)
                                       && forall j :: 0 <= j < k ==> Init(e, rules[j]).err.None?
  {
    LoadEach(r => Init(e, r), rules)
  }

  /** Where every rule compiles, the aborting load and the as-written loop keep the same rules and report nothing. */
  lemma LoadedIsCompiled(e: RegexEngine, rules: seq<JsonRule>)
    ensures LoadRules(e, rules).Success? ==>
              LoadRules(e, rules).value == CompileRules(e, rules).0 && CompileRules(e, rules).1.None?
  {
    if LoadRules(e, rules).Success? {
      var loaded := LoadRules(e, rules).value;
      var compiled := CompileRules(e, rules).0;
      assert |loaded| == |compiled|;
      assert forall i :: 0 <= i < |rules| ==> loaded[i] == compiled[i];
      assert |rules| > 0 ==> Init(e, rules[|rules| - 1]).err.None?;
    }
  }

  /** A successfully loaded rule set never has a field silently widened to "match all". */
  lemma LoadedRulesFullyCompiled(e: RegexEngine, rules: seq<JsonRule>)
    ensures LoadRules(e, rules).Success? ==>
              forall i :: 0 <= i < |rules| ==>
                var loaded := LoadRules(e, rules).value[i];
                && loaded.methodRegex == Compiled(rules[i].methods)
                && loaded.hostRegex == Compiled(rules[i].host)
                && loaded.urlRegex == Compiled(rules[i].url)
  {
    forall i | 0 <= i < |rules| && LoadRules(e, rules).Success?
      ensures LoadRules(e, rules).value[i].methodRegex == Compiled(rules[i].methods)
      ensures LoadRules(e, rules).value[i].hostRegex == Compiled(rules[i].host)
      ensures LoadRules(e, rules).value[i].urlRegex == Compiled(rules[i].url)
    {
      InitEffect(e, rules[i]);
    }
  }
}

=== FILE: selection.dfy ===
/**
 Per-request upstream selection (`SelectProxy` in src/proxy/spac.go): the
 fallback chain that picks a list of target names, and the resolution of
 those names into the candidates the caller tries in order.
 */
module Selection {
  import opened Wrappers
  import opened Text
  import opened Patterns
  import opened Rules
  import opened Policy

  /**
   One upstream the caller may try: a registered remote connection manager
   (GAE or C4), one of the two Google relays, or a freshly built `Forward`
   that connects directly (`overProxy` false) or through a named proxy.
   */
  datatype Candidate = Registered(name: string) | GoogleHttp | GoogleHttps | Forward(overProxy: bool, target: string)

  /** Why a request was answered locally instead of being routed. */
  datatype LocalHandling = SelfAdmin | RedirectToHttps

  /** `nil` (the request was handled locally) or the ordered candidate list. */
  datatype Choice = Handled(how: LocalHandling) | Candidates(list: seq<Candidate>)

  /**
   What name resolution consults: the name constants, the feature switches
   and the names in `registedRemoteConnManager`.
   */
  datatype Backends = Backends(names: Names, features: Features, registry: set<string>)

  /**
   The collaborators and process-wide state `SelectProxy` consults:
   `hostsEnabled` is `hostsEnable != HOSTS_DISABLE`, `splitHostPort` is `net.SplitHostPort`, `localIP` is `util.GetLocalIP()`,
   `needRedirectHttps` is `needRedirectHttpsHost`, `needInjectCrlf` is the
   configured CRLF host list, and `reachable` says whether
   `lookupReachableMappingHost` found an address.
   */
  datatype Env = Env(
    engine: RegexEngine,
    backends: Backends,
    hostsEnabled: bool,
    proxyPort: string,
    localIP: string,
    splitHostPort: string -> Option<(string, string)>,
    needRedirectHttps: string -> bool,
    needInjectCrlf: string -> bool,
    reachable: (Request, string) -> bool)

  /** The literal name the two built-in fallbacks put first. */
  const DirectLiteral: string := "Direct"

  /** `req.Host` split into host and port; the port is "80" when splitting fails. */
  function HostPort(env: Env, req: Request): (r: (string, string))
    ensures env.splitHostPort(req.host).Some? ==> r == env.splitHostPort(req.host).value
    ensures env.splitHostPort(req.host).None? ==> r == (req.host, "80")
  {
    match env.splitHostPort(req.host)
    case Some(hp) => hp
    case None => (req.host, "80")
  }

  /**
   The request is addressed to the proxy's own listening port on loopback or
   the local IP; a `Host` without a port counts as port 80.
   */
  function IsSelfRequest(env: Env, req: Request): (b: bool)
    ensures env.splitHostPort(req.host).None? ==>
              (b <==> (req.host == "127.0.0.1" || req.host == env.localIP) && env.proxyPort == "80")
    ensures env.splitHostPort(req.host).Some? ==>
              var (h, p) := env.splitHostPort(req.host).value;
              (b <==> (h == "127.0.0.1" || h == env.localIP) && p == env.proxyPort)
  {
    var (host, port) := HostPort(env, req);
    (host == "127.0.0.1" || host == env.localIP) && port == env.proxyPort
  }

  /** `needInjectCRLF`: the catch-all guard set by post-init, or the configured host list. */
  predicate NeedInjectCrlf(s: Spac, env: Env, reqHost: string) {
    s.injectAllCrlf || env.needInjectCrlf(reqHost)
  }

  /** Some rule of the policy matches the request. */
  predicate AnyRuleMatches(s: Spac, env: Env, req: Request) {
    exists j :: 0 <= j < |s.rules| && Match(env.engine, s.rules[j], req)
  }

  /** Which step of the chain produced the target-name list. */
  datatype NameSource = FromRule(index: nat) | CrlfFallback | ReachableFallback | DefaultTarget

  /**
   The name-choosing part of `SelectProxy`: the first matching rule, else
   the CRLF fallback (plain HTTP only), else the reachable-mapping fallback,
   else the default target. The CRLF fallback counts as a match, so it
   suppresses the reachability probe.
   */
  function ChooseNames(s: Spac, env: Env, req: Request, isHttps: bool): (r: (NameSource, seq<string>))
    ensures r.0.FromRule? <==> AnyRuleMatches(s, env, req)
    ensures r.0.FromRule? ==> r.0.index < |s.rules| && Match(env.engine, s.rules[r.0.index], req)
                              && (forall j :: 0 <= j < r.0.index ==> !Match(env.engine, s.rules[j], req))
                              && r.1 == s.rules[r.0.index].proxy
    ensures r.0.CrlfFallback? <==> !AnyRuleMatches(s, env, req) && !isHttps && NeedInjectCrlf(s, env, req.host)
    ensures r.0.ReachableFallback? <==>
              && !AnyRuleMatches(s, env, req)
              && !(!isHttps && NeedInjectCrlf(s, env, req.host))
              && env.hostsEnabled
              && env.reachable(req, JoinHostPort(HostPort(env, req).0, HostPort(env, req).1))
    ensures r.0.CrlfFallback? || r.0.ReachableFallback? ==> r.1 == [DirectLiteral, s.defaultRule]
    ensures r.0.DefaultTarget? ==> r.1 == [s.defaultRule]
  {
    var (host, port) := HostPort(env, req);
    var first := FirstMatch(env.engine, s.rules, req);
    var names := if first.Some? then s.rules[first.value].proxy else [s.defaultRule];
    var source := if first.Some? then FromRule(first.value) else DefaultTarget;
    var matched := first.Some?;
    var (source, names, matched) :=
      if !isHttps && !matched && NeedInjectCrlf(s, env, req.host) then (CrlfFallback, [DirectLiteral, s.defaultRule], true)
      else (source, names, matched);
    if !matched && env.hostsEnabled && env.reachable(req, JoinHostPort(host, port)) then
      (ReachableFallback, [DirectLiteral, s.defaultRule])
    else (source, names)
  }

  /** `DEFAULT_NAME` (in any letter case) stands for the policy's default target. */
  function EffectiveName(s: Spac, n: Names, name: string): (r: string)
    ensures Lower(name) == Lower(n.defaultAlias) ==> r == s.defaultRule
    ensures Lower(name) != Lower(n.defaultAlias) ==> r == name
  {
    if EqualFold(name, n.defaultAlias) then s.defaultRule else name
  }

  /** `:` splits a host from a port and `://` ends a scheme. */
  lemma {:induction false} SchemeHasColon(s: string)
    ensures Contains(s, "://") ==> ':' in s
    decreases |s|
  {
    if |s| > 0 {
      if HasPrefix(s, "://") {
        assert s[0] == s[..3][0] == ':';
      } else {
        SchemeHasColon(s[1..]);
      }
    }
  }

  lemma {:induction false} NoSchemeAfterPort(h: string)
    requires ':' !in h
    ensures !Contains(h + ":80", "://")
    decreases |h|
  {
    if |h| == 0 {
      assert h + ":80" == ":80";
      assert ":80"[..3][1] == '8';
      assert !HasPrefix(":80", "://");
      assert ":80"[1..] == "80";
      SchemeHasColon("80");
    } else {
      assert (h + ":80")[1..] == h[1..] + ":80";
      assert (h + ":80")[0] == h[0] != ':';
      NoSchemeAfterPort(h[1..]);
    }
  }

  lemma HttpPrefixHasScheme(t: string)
    ensures Contains("http://" + t, "://")
  {
    ContainsConcat("http:", "//" + t, "://");
    assert ("http:" + ("//" + t)) == "http://" + t;
    assert HasPrefix(":" + ("//" + t), "://");
    ContainsConcat("http", ":" + ("//" + t), "://");
    assert "http" + (":" + ("//" + t)) == "http://" + t;
  }

  /**
   The `Forward` target for the direct name: `req.Host` gets `:80` iff it has
   no `:`, and `http://` in front iff it has no `://`.
   */
  function DirectTarget(reqHost: string): (t: string)
    ensures t == (if Contains(reqHost, "://") then "" else "http://") + reqHost + (if ':' in reqHost then "" else ":80")
    ensures Contains(t, "://")
  {
    var t := reqHost;
    var t := if !Contains(t, [':']) then t + ":80" else t;
    ContainsChar(reqHost, ':');
    if ':' !in reqHost then
      NoSchemeAfterPort(reqHost);
      SchemeHasColon(reqHost);
      HttpPrefixHasScheme(t);
      "http://" + t
    else if !Contains(t, "://") then
      HttpPrefixHasScheme(t);
      "http://" + t
    else t
  }

  /** Normalising a direct target twice changes nothing. */
  lemma DirectTargetIdempotent(reqHost: string)
    ensures DirectTarget(DirectTarget(reqHost)) == DirectTarget(reqHost)
  {
    var t := DirectTarget(reqHost);
    SchemeHasColon(t);
    assert ':' in t;
    assert t + "" == t;
    assert "" + t + "" == t;
  }

  /**
   The `Forward` target for any other name: the trimmed name, with `http://`
   in front iff it has no `://`; no port is ever added.
   */
  function ProxyTarget(name: string): (t: string)
    ensures t == (if Contains(TrimSpace(name), "://") then "" else "http://") + TrimSpace(name)
    ensures Contains(t, "://")
    ensures IsTrimmed(t)
  {
    var t := TrimSpace(name);
    if !Contains(t, "://") then
      HttpPrefixHasScheme(t);
      "http://" + t
    else
      t
  }

  /** Normalising a proxy target twice changes nothing. */
  lemma ProxyTargetIdempotent(name: string)
    ensures ProxyTarget(ProxyTarget(name)) == ProxyTarget(name)
  {
    TrimSpaceOfTrimmed(ProxyTarget(name));
  }

  /** Names that resolve to nothing: an unregistered GAE/C4, or a Google relay while Google is off. */
  predicate Dropped(b: Backends, p: string) {
    || ((p == b.names.gae || p == b.names.c4) && p !in b.registry)
    || ((p == b.names.google || p == b.names.googleHttp || p == b.names.googleHttps)
        && !b.features.googleEnabled)
  }

  /** The `switch` over one target name in `SelectProxy`. */
  function ResolveName(s: Spac, b: Backends, reqHost: string, name: string): (r: Option<Candidate>)
    ensures b.names.Distinct() ==> (r.None? <==> Dropped(b, EffectiveName(s, b.names, name)))
    ensures r.Some? && r.value.Registered? ==>
              r.value.name == EffectiveName(s, b.names, name) && r.value.name in b.registry
    ensures r.Some? && r.value.Forward? ==> Contains(r.value.target, "://")
    ensures b.names.Distinct() ==>
              (r == Some(Forward(false, DirectTarget(reqHost))) <==> EffectiveName(s, b.names, name) == b.names.direct)
    ensures r.Some? && r.value.Forward? && r.value.overProxy ==>
              r.value.target == ProxyTarget(EffectiveName(s, b.names, name))
    ensures var p := EffectiveName(s, b.names, name);
            (r.Some? && r.value.Registered?) <==> (p == b.names.gae || p == b.names.c4) && p in b.registry
    ensures var p := EffectiveName(s, b.names, name);
            b.names.Distinct() ==>
              (r == Some(GoogleHttp) <==> (p == b.names.google || p == b.names.googleHttp) && b.features.googleEnabled)
    ensures var p := EffectiveName(s, b.names, name);
            b.names.Distinct() ==> (r == Some(GoogleHttps) <==> p == b.names.googleHttps && b.features.googleEnabled)
    ensures var p := EffectiveName(s, b.names, name);
            p !in {b.names.gae, b.names.c4, b.names.google, b.names.googleHttp, b.names.googleHttps, b.names.direct} ==>
              r == Some(Forward(true, ProxyTarget(p)))
  {
    var n := b.names;
    var p := EffectiveName(s, n, name);
    if p == n.gae || p == n.c4 then
      if p in b.registry then Some(Registered(p)) else None
    else if p == n.google || p == n.googleHttp then
      if b.features.googleEnabled then Some(GoogleHttp) else None
    else if p == n.googleHttps then
      if b.features.googleEnabled then Some(GoogleHttps) else None
    else if p == n.direct then
      Some(Forward(false, DirectTarget(reqHost)))
    else
      Some(Forward(true, ProxyTarget(p)))
  }

  /** The present values of `f` over `xs`, in order; absent results are dropped. */
  function Collect<A, B>(f: A -> Option<B>, xs: seq<A>): (r: seq<B>)
    ensures |r| <= |xs|
    ensures |r| == |xs| <==> forall i :: 0 <= i < |xs| ==> f(xs[i]).Some?
    decreases |xs|
  {
    if |xs| == 0 then []
    else
      var rest := Collect(f, xs[1..]);
      var head := match f(xs[0]) case Some(c) => [c] case None => [];
      assert (forall i :: 0 <= i < |xs| ==> f(xs[i]).Some?) <==>
             f(xs[0]).Some? && (forall i :: 0 <= i < |xs[1..]| ==> f(xs[1..][i]).Some?) by {
        if forall i :: 0 <= i < |xs[1..]| ==> f(xs[1..][i]).Some? {
          forall i | 1 <= i < |xs|
            ensures f(xs[i]).Some?
          {
            assert xs[i] == xs[1..][i - 1];
          }
        }
      }
      head + rest
  }

  /** Every collected value is the value of some element. */
  lemma {:induction false} CollectSources<A, B>(f: A -> Option<B>, xs: seq<A>, k: nat)
    requires k < |Collect(f, xs)|
    ensures exists i :: 0 <= i < |xs| && f(xs[i]) == Some(Collect(f, xs)[k])
    decreases |xs|
  {
    var rest := Collect(f, xs[1..]);
    var r0 := f(xs[0]);
    if r0.Some? && k == 0 {
      assert f(xs[0]) == Some(Collect(f, xs)[k]);
    } else {
      var k' := if r0.Some? then k - 1 else k;
      assert Collect(f, xs)[k] == rest[k'];
      CollectSources(f, xs[1..], k');
      var i :| 0 <= i < |xs[1..]| && f(xs[1..][i]) == Some(rest[k']);
      assert xs[1..][i] == xs[i + 1];
    }
  }

  /** Collecting over a concatenation concatenates the collections. */
  lemma {:induction false} CollectConcat<A, B>(f: A -> Option<B>, xs: seq<A>, ys: seq<A>)
    ensures Collect(f, xs + ys) == Collect(f, xs) + Collect(f, ys)
    decreases |xs|
  {
    if |xs| == 0 {
      assert xs + ys == ys;
    } else {
      assert (xs + ys)[0] == xs[0];
      assert (xs + ys)[1..] == xs[1..] + ys;
      CollectConcat(f, xs[1..], ys);
    }
  }

  /** Resolves every name in list order; a dropped name contributes nothing. */
  function ResolveAll(s: Spac, b: Backends, reqHost: string, names: seq<string>): (r: seq<Candidate>)
    ensures |r| <= |names|
    ensures |r| == |names| <==> forall i :: 0 <= i < |names| ==> ResolveName(s, b, reqHost, names[i]).Some?
  {
    Collect(name => ResolveName(s, b, reqHost, name), names)
  }

  /** Every candidate is what some name of the list resolves to. */
  lemma ResolveAllSources(s: Spac, b: Backends, reqHost: string, names: seq<string>, k: nat)
    requires k < |ResolveAll(s, b, reqHost, names)|
    ensures exists i :: 0 <= i < |names| && ResolveName(s, b, reqHost, names[i]) == Some(ResolveAll(s, b, reqHost, names)[k])
  {
    CollectSources(name => ResolveName(s, b, reqHost, name), names, k);
  }

  /** Resolution keeps list order: resolving a concatenation concatenates the resolutions. */
  lemma ResolveAllConcat(s: Spac, b: Backends, reqHost: string, xs: seq<string>, ys: seq<string>)
    ensures ResolveAll(s, b, reqHost, xs + ys) == ResolveAll(s, b, reqHost, xs) + ResolveAll(s, b, reqHost, ys)
  {
    CollectConcat(name => ResolveName(s, b, reqHost, name), xs, ys);
  }

  /**
   `SelectProxy`: `nil` exactly for a self-request (checked first) or for
   plain HTTP to a must-redirect host; otherwise the resolved candidates of
   the chosen name list, possibly none.
   */
  function SelectProxy(s: Spac, env: Env, req: Request, isHttps: bool): (r: Choice)
    ensures r.Handled? <==> IsSelfRequest(env, req) || (!isHttps && env.needRedirectHttps(req.host))
    ensures r == Handled(SelfAdmin) <==> IsSelfRequest(env, req)
    ensures r.Candidates? ==> r.list == ResolveAll(s, env.backends, req.host, ChooseNames(s, env, req, isHttps).1)
  {
    if IsSelfRequest(env, req) then Handled(SelfAdmin)
    else if !isHttps && env.needRedirectHttps(req.host) then Handled(RedirectToHttps)
    else Candidates(ResolveAll(s, env.backends, req.host, ChooseNames(s, env, req, isHttps).1))
  }

  /** A routed request: neither a self-request nor a forced redirect. */
  predicate Routed(env: Env, req: Request, isHttps: bool) {
    !IsSelfRequest(env, req) && !(!isHttps && env.needRedirectHttps(req.host))
  }

  /**
   First match wins: when rule `i` is the first rule matching, its Proxy list
   alone decides the candidates, whatever the CRLF and reachability
   collaborators say and whatever later rules match.
   */
  lemma FirstRuleWins(s: Spac, env: Env, req: Request, isHttps: bool, i: nat)
    requires Routed(env, req, isHttps)
    requires i < |s.rules| && Match(env.engine, s.rules[i], req)
    requires forall j :: 0 <= j < i ==> !Match(env.engine, s.rules[j], req)
    ensures SelectProxy(s, env, req, isHttps) == Candidates(ResolveAll(s, env.backends, req.host, s.rules[i].proxy))
  {
    var c := ChooseNames(s, env, req, isHttps);
    assert c.0.FromRule?;
    assert c.0.index == i;
  }

  /**
   The CRLF fallback takes precedence over the reachable-mapping fallback:
   once it applies, the answer of the reachability probe is irrelevant.
   */
  lemma CrlfSuppressesReachability(s: Spac, env: Env, req: Request, probe: (Request, string) -> bool)
    requires !AnyRuleMatches(s, env, req) && NeedInjectCrlf(s, env, req.host)
    ensures ChooseNames(s, env, req, false) == (CrlfFallback, [DirectLiteral, s.defaultRule])
    ensures SelectProxy(s, env, req, false) == SelectProxy(s, env.(reachable := probe), req, false)
  {
    var env' := env.(reachable := probe);
    assert ChooseNames(s, env, req, false).0.CrlfFallback?;
    assert AnyRuleMatches(s, env', req) == AnyRuleMatches(s, env, req);
    assert NeedInjectCrlf(s, env', req.host);
    assert ChooseNames(s, env', req, false).0.CrlfFallback?;
  }

  /** With no rule, no CRLF fallback and no reachable mapping, only the default target is tried. */
  lemma DefaultWhenNothingApplies(s: Spac, env: Env, req: Request, isHttps: bool)
    requires Routed(env, req, isHttps)
    requires !AnyRuleMatches(s, env, req)
    requires isHttps || !NeedInjectCrlf(s, env, req.host)
    requires !env.hostsEnabled
    ensures SelectProxy(s, env, req, isHttps) == Candidates(ResolveAll(s, env.backends, req.host, [s.defaultRule]))
  {
  }

  /**
   The fallbacks name the direct target through the literal "Direct"; it
   reaches the DIRECT_NAME case only under the assumption that DIRECT_NAME is
   that literal (and that the literal is not the default alias).
   */
  lemma DirectLiteralResolvesDirect(s: Spac, env: Env, req: Request)
    requires env.backends.names.Distinct() && env.backends.names.direct == DirectLiteral
    requires !EqualFold(DirectLiteral, env.backends.names.defaultAlias)
    ensures ResolveName(s, env.backends, req.host, DirectLiteral) == Some(Forward(false, DirectTarget(req.host)))
  {
  }

  /** Without that assumption the literal "Direct" is treated as the address of an upstream proxy. */
  lemma DirectLiteralOtherwiseProxy(s: Spac, env: Env, req: Request)
    requires DirectLiteral !in {env.backends.names.gae, env.backends.names.c4, env.backends.names.direct}
    requires DirectLiteral !in {env.backends.names.google, env.backends.names.googleHttp, env.backends.names.googleHttps}
    requires !EqualFold(DirectLiteral, env.backends.names.defaultAlias)
    ensures ResolveName(s, env.backends, req.host, DirectLiteral) == Some(Forward(true, "http://Direct"))
  {
    assert EffectiveName(s, env.backends.names, DirectLiteral) == DirectLiteral;
    DirectLiteralTarget();
  }

  lemma DirectLiteralTarget()
    ensures ProxyTarget(DirectLiteral) == "http://Direct"
  {
    assert IsTrimmed(DirectLiteral) && ':' !in DirectLiteral;
    PlainProxyTarget(DirectLiteral);
  }

  /** A bare trimmed host name gets `http://` in front and nothing else. */
  lemma PlainProxyTarget(name: string)
    requires IsTrimmed(name) && ':' !in name
    ensures ProxyTarget(name) == "http://" + name
  {
    TrimSpaceOfTrimmed(name);
    SchemeHasColon(name);
  }

  /**
   A disabled candidate is left out rather than kept as a placeholder:
   ["Direct", GAE] with GAE unregistered gives the single direct candidate.
   */
  lemma UnregisteredGaeIsSkipped(s: Spac, env: Env, req: Request)
    requires env.backends.names.Distinct() && env.backends.names.direct == DirectLiteral
    requires !EqualFold(DirectLiteral, env.backends.names.defaultAlias) && !EqualFold(env.backends.names.gae, env.backends.names.defaultAlias)
    requires env.backends.names.gae !in env.backends.registry
    ensures ResolveAll(s, env.backends, req.host, [DirectLiteral, env.backends.names.gae]) == [Forward(false, DirectTarget(req.host))]
  {
    DirectLiteralResolvesDirect(s, env, req);
    assert ResolveName(s, env.backends, req.host, env.backends.names.gae).None?;
    assert [DirectLiteral, env.backends.names.gae][1..] == [env.backends.names.gae];
    assert ResolveAll(s, env.backends, req.host, [env.backends.names.gae]) == [];
  }

  /**
   After post-init has replaced a disabled GAE default by the direct target,
   an unmatched plain-HTTP request is sent direct twice: once for the CRLF
   fallback's "Direct" and once for the default.
   */
  lemma DisabledGaeDefaultGoesDirect(s0: Spac, env: Env, req: Request)
    requires env.backends.names.Distinct() && env.backends.names.direct == DirectLiteral
    requires !EqualFold(DirectLiteral, env.backends.names.defaultAlias)
    requires s0.defaultRule == env.backends.names.gae && !env.backends.features.gaeEnabled
    requires Routed(env, req, false)
    requires !AnyRuleMatches(PostInit(s0, env.backends.features, env.backends.names), env, req)
    ensures var d := Forward(false, DirectTarget(req.host));
            SelectProxy(PostInit(s0, env.backends.features, env.backends.names), env, req, false) == Candidates([d, d])
  {
    var s := PostInit(s0, env.backends.features, env.backends.names);
    assert s.defaultRule == DirectLiteral && s.injectAllCrlf;
    DirectLiteralResolvesDirect(s, env, req);
    var names := [DirectLiteral, s.defaultRule];
    assert ChooseNames(s, env, req, false).1 == names;
    assert names[1..] == [DirectLiteral];
    assert ResolveAll(s, env.backends, req.host, [DirectLiteral]) == [Forward(false, DirectTarget(req.host))];
  }
}

=== FILE: text.dfy ===
/**
 Go standard-library string helpers used by the routing core
 (`strings.TrimSpace`, `HasPrefix`, `HasSuffix`, `Contains`, `Replace` with
 n = -1, `EqualFold`, `Join`), stated over `seq<char>`.
 */
module Text {

  /** Go's `unicode.IsSpace`: the Latin-1 spaces plus the Unicode White_Space set. */
  predicate IsSpace(c: char) {
    || c == ' ' || c == '\t' || c == '\n' || c == '\r'
    || c == '\U{000B}' || c == '\U{000C}' || c == '\U{0085}' || c == '\U{00A0}'
    || c == '\U{1680}' || ('\U{2000}' <= c <= '\U{200A}')
    || c == '\U{2028}' || c == '\U{2029}' || c == '\U{202F}' || c == '\U{205F}' || c == '\U{3000}'
  }

  /** Neither end of `s` is a space. */
  predicate IsTrimmed(s: string) {
    |s| == 0 || (!IsSpace(s[0]) && !IsSpace(s[|s| - 1]))
  }

  /** Drops the leading spaces: what is dropped is all space and what is left starts with a non-space. */
  function TrimLeft(s: string): (r: string)
    ensures |r| <= |s| && r == s[|s| - |r|..]
    ensures |r| > 0 ==> !IsSpace(r[0])
    ensures forall i :: 0 <= i < |s| - |r| ==> IsSpace(s[i])
  {
    if |s| > 0 && IsSpace(s[0]) then TrimLeft(s[1..]) else s
  }

  /** Drops the trailing spaces: what is dropped is all space and what is left ends with a non-space. */
  function TrimRight(s: string): (r: string)
    ensures |r| <= |s| && r == s[..|r|]
    ensures |r| > 0 ==> !IsSpace(r[|r| - 1])
    ensures forall i :: |r| <= i < |s| ==> IsSpace(s[i])
  {
    if |s| > 0 && IsSpace(s[|s| - 1]) then TrimRight(s[..|s| - 1]) else s
  }

  /**
   `strings.TrimSpace`: the slice of `s` between its leading and its
   trailing white space.
   */
  function TrimSpace(s: string): (r: string)
    ensures IsTrimmed(r)
    ensures exists i, j :: 0 <= i <= j <= |s| && r == s[i..j]
                           && (forall k :: 0 <= k < i ==> IsSpace(s[k]))
                           && (forall k :: j <= k < |s| ==> IsSpace(s[k]))
  {
    var l := TrimLeft(s);
    var r := TrimRight(l);
    var i := |s| - |l|;
    assert r == s[i..i + |r|];
    r
  }

  /** Trimming leaves an already trimmed string alone, so `TrimSpace` is idempotent. */
  lemma TrimSpaceOfTrimmed(s: string)
    requires IsTrimmed(s)
    ensures TrimSpace(s) == s
  {
    if |s| > 0 {
      assert !IsSpace(s[0]);
      assert TrimLeft(s) == s;
      assert !IsSpace(s[|s| - 1]);
      assert TrimRight(s) == s;
    }
  }

  predicate HasPrefix(s: string, p: string) {
    |p| <= |s| && s[..|p|] == p
  }

  predicate HasSuffix(s: string, p: string) {
    |p| <= |s| && s[|s| - |p|..] == p
  }

  /** A concatenation starts with its first part, holds its middle part right after, and ends with its last. */
  lemma ConcatEnds(a: string, b: string, c: string)
    ensures HasPrefix(a + b + c, a) && HasSuffix(a + b + c, c)
    ensures (a + b + c)[|a|..|a| + |b|] == b
  {
    assert (a + b + c)[..|a|] == a;
    assert (a + b + c)[|a + b + c| - |c|..] == c;
  }

  /** `strings.Contains`: some position of `s` starts a copy of `t`. */
  predicate Contains(s: string, t: string)
    decreases |s|
  {
    HasPrefix(s, t) || (|s| > 0 && Contains(s[1..], t))
  }

  /** An occurrence inside `a` or inside `b` is an occurrence inside `a + b`. */
  lemma {:induction false} ContainsConcat(a: string, b: string, t: string)
    ensures Contains(a, t) ==> Contains(a + b, t)
    ensures Contains(b, t) ==> Contains(a + b, t)
    decreases |a|
  {
    if |a| == 0 {
      assert a + b == b;
    } else {
      assert (a + b)[1..] == a[1..] + b;
      ContainsConcat(a[1..], b, t);
      if HasPrefix(a, t) {
        assert (a + b)[..|t|] == a[..|t|];
      }
    }
  }

  /** For a one-character needle `Contains` is plain membership. */
  lemma {:induction false} ContainsChar(s: string, c: char)
    ensures Contains(s, [c]) <==> c in s
    decreases |s|
  {
    if |s| > 0 {
      ContainsChar(s[1..], c);
      assert s == [s[0]] + s[1..];
    }
  }

  /**
   `strings.Replace(s, pat, rep, -1)`: replaces every non-overlapping
   occurrence of `pat`, scanning from the left.
   */
  function ReplaceAll(s: string, pat: string, rep: string): (r: string)
    requires |pat| > 0
    ensures !Contains(s, pat) ==> r == s
    ensures rep == pat ==> r == s
    ensures |rep| == |pat| ==> |r| == |s|
    decreases |s|
  {
    if |s| == 0 then ""
    else if HasPrefix(s, pat) then
      var rest := ReplaceAll(s[|pat|..], pat, rep);
      assert rep == pat ==> rep + rest == s[..|pat|] + s[|pat|..] == s;
      rep + rest
    else
      var rest := ReplaceAll(s[1..], pat, rep);
      assert [s[0]] + s[1..] == s;
      [s[0]] + rest
  }

  /** `a + sep + b + ...`; the empty list joins to the empty string. */
  function Join(parts: seq<string>, sep: string): (r: string)
    ensures |parts| == 1 ==> r == parts[0]
    ensures |parts| == 0 ==> r == ""
  {
    if |parts| == 0 then ""
    else if |parts| == 1 then parts[0]
    else parts[0] + sep + Join(parts[1..], sep)
  }

  /** Joining one more part appends the separator and that part. */
  lemma {:induction false} JoinSnoc(parts: seq<string>, x: string, sep: string)
    requires |parts| > 0
    ensures Join(parts + [x], sep) == Join(parts, sep) + sep + x
    decreases |parts|
  {
    if |parts| == 1 {
      assert parts + [x] == [parts[0], x];
      assert Join([x], sep) == x;
    } else {
      assert (parts + [x])[1..] == parts[1..] + [x];
      JoinSnoc(parts[1..], x, sep);
    }
  }

  /** ASCII case mapping; `EqualFold` below folds only these letters. */
  function AsciiLower(c: char): char {
    if 'A' <= c <= 'Z' then (c as int + 32) as char else c
  }

  /** Every letter of `s` in lower case. */
  function Lower(s: string): (r: string)
    ensures |r| == |s|
  {
    seq(|s|, i requires 0 <= i < |s| => AsciiLower(s[i]))
  }

  /**
   `strings.EqualFold`, restricted to ASCII case folding: the two strings
   agree letter by letter up to case, that is, they lower-case to the same
   string.
   */
  function EqualFold(a: string, b: string): (r: bool)
    ensures r <==> Lower(a) == Lower(b)
  {
    var ok := |a| == |b| && forall i :: 0 <= i < |a| ==> AsciiLower(a[i]) == AsciiLower(b[i]);
    assert Lower(a) == Lower(b) ==> forall i :: 0 <= i < |a| ==> AsciiLower(a[i]) == Lower(a)[i] == Lower(b)[i] == AsciiLower(b[i]);
    ok
  }

  /** `net.JoinHostPort`: a host containing `:` (an IPv6 address) is bracketed. */
  function JoinHostPort(host: string, port: string): (r: string)
    ensures |r| > |port| && r[|r| - |port| - 1] == ':' && r[|r| - |port|..] == port
    ensures r[..|r| - |port| - 1] == if ':' in host then "[" + host + "]" else host
  {
    var h := if ':' in host then "[" + host + "]" else host;
    assert (h + ":" + port)[..|h|] == h;
    h + ":" + port
  }
}

=== FILE: wrappers.dfy ===
/** Failure-compatible result types shared by the whole model. */
module Wrappers {

  /** An optional value; stands for Go's `nil` error and for "not found". */
  datatype Option<+T> = None | Some(value: T)

  /** A value or the error that prevented computing it. */
  datatype Result<+R, +E> = Success(value: R) | Failure(error: E) {
    predicate IsFailure() {
      Failure?
    }

    function PropagateFailure<U>(): Result<U, E>
      requires Failure?
    {
      Failure(error)
    }

    function Extract(): R
      requires Success?
    {
      value
    }
  }
}
